=== FILE: README.md ===
# Icinga 2 object definitions migrated from legacy configuration

This project models `Icinga2ObjectDefinition`, the conftool class that turns one
parsed Icinga 1.x object (a command or a host group) into an Icinga 2 object
definition and renders that definition as configuration text. The model covers:

- **value migration** (`Values`). Attributes whose names are array properties
  are split at commas into a list. Any other value stays a scalar: it passes
  through unquoted when it starts with a digit, and is otherwise quoted as a
  string literal (`Escaping`, `Splitting`).
- **the object under construction** (`ObjectDefinitions`). It has a type, a
  name, an insertion-ordered property map written through `__set`, and the
  `assign where` and `ignore where` rule lists.
- **attribute conversion and type dispatch** (`Migration`). An attribute goes to
  its override handler first. Otherwise it goes to its mapped property, or the
  migration fails. Only `command` and `hostgroup` definitions are migrated. The
  two concrete classes become a `Variant`: their Icinga 2 type, attribute map,
  array properties and handlers, given as parameters.
- **rendering** (`Rendering`). This covers `renderArray`,
  `getAttributesAsString`, `getAssignmentsAsString` and `__toString`. Each
  rendered form is given meaning by a reader that parses it back.

One might expect `migrateLegacyString` to double backslashes. The first
`preg_replace` at line 107, however, replaces a backslash with the replacement
string `\\`, and `preg_replace` expands that replacement to a single backslash,
so the step changes nothing. The model follows the code
(`Escaping.BackslashStepIsIdentity`).

Literals are read back under two conventions:

- **The convention the escaping itself follows** (`Rendering.ReadLiteral`,
  `Escaping.Unescape`). A backslash before a double quote stands for the quote,
  any other backslash stands for itself, and the first quote without a backslash
  ends the literal. Most read-back lemmas use this reader. Under it, a value
  that ends with a backslash still breaks: the backslash escapes the closing
  quote. For a list element this is `Rendering.TrailingBackslashIsMisread`; for
  a quoted scalar it is `Rendering.ScalarTrailingBackslashIsMisread` and
  `Rendering.ScalarLiteralReadsBack`.
- **The convention that a backslash escapes whatever follows it**, so that
  `\\` is one backslash (`Rendering.ReadEscapingLiteral`). This is the syntax a
  doubling step would have been written for. Under it, a value without
  backslashes reads back, but `a\"b` migrates to `"a\\"b"`, which ends after
  `a\` and leaves `b"` over (`Rendering.EscapedBackslashEndsLiteralEarly`).

All source paths below are relative to the repository root.

## Model

| member | source | states |
|---|---|---|
| Escaping.MigrateLegacyString | modules/conftool/library/Conftool/Icinga2/Icinga2ObjectDefinition.php:105-110 | The result is the value between double quotes, with a backslash put before each double quote. It is two characters plus one per quote longer than the value. Unquoting and unescaping it gives the value back. |
| Escaping.BackslashStepIsIdentity | modules/conftool/library/Conftool/Icinga2/Icinga2ObjectDefinition.php:107 | The backslash replacement leaves every string unchanged, because its replacement text expands to a single backslash. |
| Escaping.QuoteStepEscapesQuotes | modules/conftool/library/Conftool/Icinga2/Icinga2ObjectDefinition.php:108 | The quote replacement puts a backslash before each double quote and copies every other character. It agrees with the character-wise escaping the rest of the model uses. |
| Escaping.UnescapeEscapeQuotes | modules/conftool/library/Conftool/Icinga2/Icinga2ObjectDefinition.php:108 | Dropping the backslash in front of each escaped quote recovers the original text, so quote escaping loses nothing. |
| Escaping.EscapeQuotesLength | modules/conftool/library/Conftool/Icinga2/Icinga2ObjectDefinition.php:108 | The escaped text is longer than the original by exactly the number of double quotes in it. |
| Escaping.EscapeQuotesGuardsQuotes | modules/conftool/library/Conftool/Icinga2/Icinga2ObjectDefinition.php:108-109 | Every double quote in the escaped body comes right after a backslash, so under the escaping's own convention none of them ends the literal. |
| Escaping.EscapeQuotesKeeps | modules/conftool/library/Conftool/Icinga2/Icinga2ObjectDefinition.php:107-108 | A character other than a backslash or a quote occurs in the escaped text exactly when it occurs in the original. |
| Escaping.LoneBackslashIsNotDoubled | modules/conftool/library/Conftool/Icinga2/Icinga2ObjectDefinition.php:107-109 | A lone backslash migrates to a quote, a backslash and a quote: the backslash is not doubled. |
| Splitting.SplitComma | modules/conftool/library/Conftool/Icinga2/Icinga2ObjectDefinition.php:100-103 | The pieces are the comma-separated fields, in order, with the whitespace next to each comma removed and empty fields dropped. No piece is empty or holds a comma. |
| Splitting.SpaceRunIsMaximal | modules/conftool/library/Conftool/Icinga2/Icinga2ObjectDefinition.php:102 | The greedy `\s*` run is all whitespace and stops at a non-space character or at the end. |
| Splitting.SplitCommaJoin | modules/conftool/library/Conftool/Icinga2/Icinga2ObjectDefinition.php:100-103 | Joining non-empty, comma-free pieces without outer whitespace by any separator of the form "whitespace, comma, whitespace" and splitting the result gives the pieces back. |
| Splitting.SplitCommaKeepsOuterSpace | modules/conftool/library/Conftool/Icinga2/Icinga2ObjectDefinition.php:102 | Whitespace that is not next to a comma is kept: `" a "` is one piece, unchanged. |
| Splitting.SplitCommaExample | modules/conftool/library/Conftool/Icinga2/Icinga2ObjectDefinition.php:100-103 | `"a, b ,c"` splits into `a`, `b` and `c`. |
| Values.MigrateScalar | modules/conftool/library/Conftool/Icinga2/Icinga2ObjectDefinition.php:69-72 | A value that starts with a digit passes through unchanged. Any other value becomes a double-quoted literal. Stripping the outer quotes and the backslashes before quotes gives the value back. Whether a reader finds the closing quote is stated by `Rendering.ScalarLiteralReadsBack`. |
| Values.MigrateValue | modules/conftool/library/Conftool/Icinga2/Icinga2ObjectDefinition.php:60-73 | The result is a list exactly when a key is given and is an array property. A list has one element per comma-separated piece, in order, each migrated as a scalar. A numeric scalar is the value itself. For a scalar, and for each list element, stripping the outer quotes and the backslashes before quotes gives the value or piece back. Whether a reader finds the closing quote is stated by `Rendering.ScalarLiteralReadsBack`. |
| Values.MigratePieces | modules/conftool/library/Conftool/Icinga2/Icinga2ObjectDefinition.php:63-67 | Each piece is migrated without a key, so it takes the scalar branch. The results keep the pieces' order and count. |
| Values.MigrateListExample | modules/conftool/library/Conftool/Icinga2/Icinga2ObjectDefinition.php:62-67 | An array property `" a "` becomes the one-element list holding the quoted `" a "`. |
| Values.NumericPrefixExamples | modules/conftool/library/Conftool/Icinga2/Icinga2ObjectDefinition.php:69-72 | `30` and `30s` pass through unquoted; `abc` becomes `"abc"`. |
| ObjectDefinitions.NewDefinition | modules/conftool/library/Conftool/Icinga2/Icinga2ObjectDefinition.php:17-20 | A new object has the given name and its class's type. No property is set under any key, and there are no rules yet. |
| ObjectDefinitions.Put | modules/conftool/library/Conftool/Icinga2/Icinga2ObjectDefinition.php:22-25 | After a write, the key holds the new value and every other key its old one. An existing key keeps the key order; a new key is appended to it. |
| ObjectDefinitions.PutKeepsUniqueKeys | modules/conftool/library/Conftool/Icinga2/Icinga2ObjectDefinition.php:22-25 | Writing a property never creates a duplicate key. |
| ObjectDefinitions.PutInPlace | modules/conftool/library/Conftool/Icinga2/Icinga2ObjectDefinition.php:22-25 | Overwriting an existing key replaces that entry where it stands and leaves every other entry as it was. |
| ObjectDefinitions.PutAppends | modules/conftool/library/Conftool/Icinga2/Icinga2ObjectDefinition.php:22-25 | A new key is added as the last entry, after all existing entries. |
| ObjectDefinitions.AssignWhere | modules/conftool/library/Conftool/Icinga2/Icinga2ObjectDefinition.php:32-35 | Adds the expression at the end of the assign rules and changes nothing else. |
| ObjectDefinitions.IgnoreWhere | modules/conftool/library/Conftool/Icinga2/Icinga2ObjectDefinition.php:37-40 | Adds the expression at the end of the ignore rules and changes nothing else. |
| ObjectDefinitions.RuleListsAreIndependent | modules/conftool/library/Conftool/Icinga2/Icinga2ObjectDefinition.php:32-40 | Assign and ignore rules go to separate lists: adding one of each gives the same object in either order, and the properties are untouched. |
| Migration.HandlerNameIgnoresCase | modules/conftool/library/Conftool/Icinga2/Icinga2ObjectDefinition.php:45-46 | Keys that differ only in letter case find the same override handler, because method lookup ignores case. |
| Migration.ApplyEdits | modules/conftool/library/Conftool/Icinga2/Icinga2ObjectDefinition.php:47 | The handler's edits take effect in order. The assign and ignore rules it adds follow the existing ones, in the order of the edits. Each property holds the value of the last edit that sets it, or its old value when no edit does. Type and name never change. |
| Migration.ApplyEditsKeepsUniqueKeys | modules/conftool/library/Conftool/Icinga2/Icinga2ObjectDefinition.php:47 | A handler's property writes keep the property keys unique. |
| Migration.ConvertAttribute | modules/conftool/library/Conftool/Icinga2/Icinga2ObjectDefinition.php:45-56 | Converting an attribute fails exactly when the key has neither a handler nor a map entry, and the error names the key. A mapped key without a handler sets only its target property, to the migrated value, and leaves the rules alone. Property keys that were unique stay unique, as in a PHP array. |
| Migration.HandlerTakesPrecedence | modules/conftool/library/Conftool/Icinga2/Icinga2ObjectDefinition.php:46-49 | When a handler exists, only the handler runs: whether the key also has a map entry makes no difference. |
| Migration.FirstUnconvertible | modules/conftool/library/Conftool/Icinga2/Icinga2ObjectDefinition.php:44-54 | The position found, if any, is an attribute that cannot be converted. |
| Migration.FirstUnconvertibleIsFirst | modules/conftool/library/Conftool/Icinga2/Icinga2ObjectDefinition.php:44-54 | Every attribute before that position can be converted. When no position is found, every attribute can. |
| Migration.SetAttributes | modules/conftool/library/Conftool/Icinga2/Icinga2ObjectDefinition.php:42-58 | The conversion fails exactly when some attribute cannot be converted, and the error names the first such attribute. Type and name are kept, and property keys that were unique stay unique. |
| Migration.SetAttributesOne | modules/conftool/library/Conftool/Icinga2/Icinga2ObjectDefinition.php:44-57 | A single attribute is converted exactly as one pass of the loop converts it: through its handler, through its map entry, or with an error. |
| Migration.SetAttributesAppend | modules/conftool/library/Conftool/Icinga2/Icinga2ObjectDefinition.php:44-57 | The attributes are converted one after the other. Converting `a + b` means converting `a`, then converting `b` on the result. A failure in `a` ends the loop with that failure. |
| Migration.SetAttributesFails | modules/conftool/library/Conftool/Icinga2/Icinga2ObjectDefinition.php:44-54 | The conversion fails if and only if some attribute has neither a handler nor a map entry. |
| Migration.MappedAttributesInOrder | modules/conftool/library/Conftool/Icinga2/Icinga2ObjectDefinition.php:44-57 | Suppose no attribute has a handler and each maps to a different new property. Then each attribute yields one property holding its migrated value, in source order, after the existing properties; the rules are untouched. |
| Migration.FromLegacy | modules/conftool/library/Conftool/Icinga2/Icinga2ObjectDefinition.php:75-98 | A `command` becomes a command and a `hostgroup` a host group, named after the legacy object and typed by its class. Any other definition type fails with an unknown-object error. A known type fails only on an attribute. On success, the definition is exactly what converting the legacy attributes with that kind's class data gives, starting from a new object. Its property keys are unique. |
| Migration.FromLegacyFailsOnAttribute | modules/conftool/library/Conftool/Icinga2/Icinga2ObjectDefinition.php:77-86 | A known type fails exactly when one of its attributes cannot be converted, and the error names the first such attribute. |
| Migration.PropertyMessage | modules/conftool/library/Conftool/Icinga2/Icinga2ObjectDefinition.php:51-52 | The message names the property between quotes. |
| Migration.PropertyMessageNamesKey | modules/conftool/library/Conftool/Icinga2/Icinga2ObjectDefinition.php:52 | Different properties give different messages, so the key can be recovered from the message. |
| Migration.UnknownObjectMessage | modules/conftool/library/Conftool/Icinga2/Icinga2ObjectDefinition.php:89-95 | The message names the object after its prefix and ends with the quoted definition type. |
| Migration.MessagesTellKindsApart | modules/conftool/library/Conftool/Icinga2/Icinga2ObjectDefinition.php:88-95 | An unknown-object message never equals a property message. |
| Rendering.RenderArray | modules/conftool/library/Conftool/Icinga2/Icinga2ObjectDefinition.php:112-119 | The text starts with `[ ` and ends with ` ]`. It is `[  ]` exactly when there are no elements, and otherwise starts with the first element's opening quote. What it holds is stated by `Rendering.RenderArrayReadsBack`. |
| Rendering.QuoteItems | modules/conftool/library/Conftool/Icinga2/Icinga2ObjectDefinition.php:114-117 | Each array element becomes its quoted literal, in order. |
| Rendering.ReadEscapedLiteral | modules/conftool/library/Conftool/Icinga2/Icinga2ObjectDefinition.php:107-109 | For text that does not end in a backslash, the escaped body followed by a closing quote reads back as the text, and what follows is left unread. |
| Rendering.RenderArrayReadsBack | modules/conftool/library/Conftool/Icinga2/Icinga2ObjectDefinition.php:112-119 | If no element ends with a backslash, the rendered array parses back to exactly its elements, in order, with `Rendering.ReadLiteral` reading each element. |
| Rendering.EmptyArray | modules/conftool/library/Conftool/Icinga2/Icinga2ObjectDefinition.php:118 | An empty array renders as `[  ]`, which reads back as the empty list. |
| Rendering.TrailingBackslashIsMisread | modules/conftool/library/Conftool/Icinga2/Icinga2ObjectDefinition.php:107-118 | An element `a\` renders as `[ "a\" ]`, whose closing quote is escaped, so the array text does not parse. |
| Rendering.TrailingBackslashEscapesCloser | modules/conftool/library/Conftool/Icinga2/Icinga2ObjectDefinition.php:107-109 | For a value that ends with a backslash, the escaped body followed by the closing quote never reads as a finished literal. |
| Rendering.ScalarLiteralReadsBack | modules/conftool/library/Conftool/Icinga2/Icinga2ObjectDefinition.php:69-72 | A scalar that does not start with a digit migrates to a literal starting with a quote. Its body reads back as the value, with the closing quote as the last character, exactly when the value does not end with a backslash. |
| Rendering.ScalarTrailingBackslashIsMisread | modules/conftool/library/Conftool/Icinga2/Icinga2ObjectDefinition.php:105-110 | The scalar `a\` migrates to `"a\"`, whose literal never closes. |
| Rendering.ReadEscapingLiteralWithoutBackslash | modules/conftool/library/Conftool/Icinga2/Icinga2ObjectDefinition.php:107-109 | Under the convention where a backslash escapes any character, a migrated value without backslashes still reads back, and the text after it is left unread. |
| Rendering.EscapedBackslashEndsLiteralEarly | modules/conftool/library/Conftool/Icinga2/Icinga2ObjectDefinition.php:107-109 | Under that convention, `a\"b` migrates to `"a\\"b"`, which reads as `a\` followed by the stray text `b"`. |
| Rendering.ListValueReadsBack | modules/conftool/library/Conftool/Icinga2/Icinga2ObjectDefinition.php:112-119 | A list-valued attribute renders to an array whose elements read back, through `Rendering.ReadLiteral`, as the migrated items. For each item, stripping the outer quotes and the backslashes before quotes gives its comma-separated piece back; whether a reader finds the item's own closing quote is stated by `Rendering.ScalarLiteralReadsBack`. The array read-back holds unless a piece both starts with a digit and ends with a backslash. |
| Rendering.ListRenderingExample | modules/conftool/library/Conftool/Icinga2/Icinga2ObjectDefinition.php:112-119 | A migrated list item is escaped again: the array property `" a "` renders as `[ "\" a \"" ]`. |
| Rendering.AttributesAsString | modules/conftool/library/Conftool/Icinga2/Icinga2ObjectDefinition.php:126-136 | The loop builds one indented `key = value` line per property, in map order. An array value is rendered as an array. |
| Rendering.RulesAsString | modules/conftool/library/Conftool/Icinga2/Icinga2ObjectDefinition.php:140-143 | The loop builds one line per rule: the given prefix followed by the expression, in rule order. |
| Rendering.AssignmentsAsString | modules/conftool/library/Conftool/Icinga2/Icinga2ObjectDefinition.php:138-148 | All the assign lines come first, then all the ignore lines. |
| Rendering.ToString | modules/conftool/library/Conftool/Icinga2/Icinga2ObjectDefinition.php:152-161 | The text consists of the header line, the attribute lines, the assign lines, the ignore lines, the closing brace and an empty line. When no name, value or rule holds a line feed, splitting the text at line feeds gives back exactly those lines. |
| Rendering.LinesText | modules/conftool/library/Conftool/Icinga2/Icinga2ObjectDefinition.php:155 | The line-by-line layout is the text that the format string produces from the header, attributes and assignments. |
| Rendering.LinesLackLineFeeds | modules/conftool/library/Conftool/Icinga2/Icinga2ObjectDefinition.php:126-155 | When no name, key, value or rule holds a line feed, no rendered line does. This holds even after a value is quoted. |
| Rendering.NewDefinitionText | modules/conftool/library/Conftool/Icinga2/Icinga2ObjectDefinition.php:152-161 | A new object with no properties or rules renders as `object <type> "<name>" {`, then `}` and an empty line. |

## Left out

- Icinga 2's full string grammar: literals are read under the two conventions above only, not with escapes such as `\n` or `\t`. The readers are there to give the rendered text a meaning.
- `GroupController` and the other users of the class: they read its output and are not part of this model.
- `dump`: it echoes `__toString`, and output is not modelled.
- `arrayToString`: it returns nothing and nothing calls it.
- `__get` on a missing key: PHP issues a notice (a warning since PHP 8) and yields null. The model reads the map only through `Lookup`, which returns `None`.
- The `IcingaObjectDefinition` parser: the legacy object arrives as its string form, its definition type and its attribute pairs in source order.
- `Migration.PropertyMessage`: the `print_r` dump of the legacy object after the message is left out. The contract speaks only of the part before it.
- The PCRE engine: the model covers the three fixed patterns only. `\d` is taken as an ASCII digit and `\s` as a fixed set of whitespace characters.
- `${n}` group references in replacement strings: the braced form is not modelled, and the two fixed replacements do not use it.
- PHP loose comparison in `in_array` and numeric-string array keys: keys are compared as strings.
- Mapped property names that collide with a declared field of the class would bypass `__set`. The model assumes they do not.
- Override handlers (`convert<Key>` methods): each is an arbitrary function from the legacy value to a list of edits (property writes and rule additions). It has no other effects.
- Icinga 2 types, attribute maps, array properties and handlers of the concrete classes: these are `Variant` parameters, not the classes' actual tables.
- The legacy object's string form: this is taken as its name.
- Byte strings and multi-byte text: strings are sequences of characters. `ucfirst` and case-insensitive method lookup are modelled on ASCII letters only.

=== FILE: Escaping.dfy ===
/** `migrateLegacyString`: turns a legacy value into an Icinga 2 string literal
    with two `preg_replace` calls and a pair of surrounding double quotes.

    The replacement strings of those calls are interpreted by PHP before they are
    inserted, so the model carries a small model of that interpretation
    (`ExpandReplacement`). It is what makes the backslash step a no-op: its
    replacement `\\` expands to a single backslash. */
module Escaping {
  import opened Strings
  import opened Results

  /** Text of capture group `n` of a match `m` of a pattern without groups:
      group 0 is the whole match, every other group is absent. */
  function GroupText(n: nat, m: string): string {
    if n == 0 then m else ""
  }

  function DigitValue(c: char): nat
    requires IsDigit(c)
  {
    c as int - '0' as int
  }

  /** How PHP's `preg_replace` reads a replacement string for one match `m`:
      `\\` stands for one backslash and `\$` for a dollar sign; `\n`, `$n`, `\nn`
      and `$nn` stand for capture group n; every other character is copied. */
  function ExpandReplacement(rep: string, m: string): string
    decreases |rep|
  {
    if |rep| == 0 then ""
    else if |rep| >= 2 && rep[0] == '\\' && (rep[1] == '\\' || rep[1] == '$') then
      [rep[1]] + ExpandReplacement(rep[2..], m)
    else if |rep| >= 2 && (rep[0] == '\\' || rep[0] == '$') && IsDigit(rep[1]) then
      if |rep| >= 3 && IsDigit(rep[2]) then
        GroupText(10 * DigitValue(rep[1]) + DigitValue(rep[2]), m) + ExpandReplacement(rep[3..], m)
      else
        GroupText(DigitValue(rep[1]), m) + ExpandReplacement(rep[2..], m)
    else [rep[0]] + ExpandReplacement(rep[1..], m)
  }

  /** `preg_replace` of a pattern that matches exactly the one character `c`:
      every occurrence of `c` becomes the expansion of `rep`. */
  function ReplaceChar(s: string, c: char, rep: string): string
  {
    if |s| == 0 then ""
    else (if s[0] == c then ExpandReplacement(rep, [c]) else [s[0]]) + ReplaceChar(s[1..], c, rep)
  }

  /** The body of the literal, character by character:
      a double quote becomes backslash and double quote, everything else is kept. */
  function EscapeQuotes(s: string): string
  {
    if |s| == 0 then ""
    else (if s[0] == '"' then "\\\"" else [s[0]]) + EscapeQuotes(s[1..])
  }

  /** Reads a literal body back under the convention the escaping follows: a
      backslash directly before a double quote is dropped, and any other backslash
      stands for itself. */
  function Unescape(b: string): string
    decreases |b|
  {
    if |b| == 0 then ""
    else if |b| >= 2 && b[0] == '\\' && b[1] == '"' then "\"" + Unescape(b[2..])
    else [b[0]] + Unescape(b[1..])
  }

  /** Strips the surrounding double quotes of a literal and unescapes its body. */
  function Unquote(t: string): Option<string>
  {
    if |t| >= 2 && t[0] == '"' && t[|t| - 1] == '"' then Some(Unescape(t[1..|t| - 1])) else None
  }

  /** `migrateLegacyString`: the backslash replacement, then the quote replacement,
      then surrounding quotes. */
  function MigrateLegacyString(s: string): (r: string)
    ensures r == "\"" + EscapeQuotes(s) + "\""
    ensures Unquote(r) == Some(s)
    ensures |r| == |s| + 2 + Count(s, '"')
  {
    BackslashStepIsIdentity(s);
    QuoteStepEscapesQuotes(s);
    UnescapeEscapeQuotes(s);
    EscapeQuotesLength(s);
    var r := "\"" + ReplaceChar(ReplaceChar(s, '\\', "\\\\"), '"', "\\\"") + "\"";
    assert r[1..|r| - 1] == EscapeQuotes(s);
    r
  }

  /** Replacing a character by a replacement that expands to that same character changes nothing. */
  lemma {:induction false} ReplaceCharIdentity(s: string, c: char, rep: string)
    requires ExpandReplacement(rep, [c]) == [c]
    ensures ReplaceChar(s, c, rep) == s
    decreases |s|
  {
    if |s| > 0 {
      ReplaceCharIdentity(s[1..], c, rep);
      assert [s[0]] + s[1..] == s;
    }
  }

  /** The backslash step (`'\\\\'` in PHP source, the two characters `\\`) replaces
      every backslash by one backslash, so it leaves every string unchanged. */
  lemma BackslashStepIsIdentity(s: string)
    ensures ReplaceChar(s, '\\', "\\\\") == s
  {
    assert "\\\\"[2..] == "";
    assert ExpandReplacement("\\\\", "\\") == "\\";
    ReplaceCharIdentity(s, '\\', "\\\\");
  }

  /** The quote step (`'\\"'` in PHP source, the two characters `\"`) puts a
      backslash before every double quote and keeps everything else. */
  lemma {:induction false} QuoteStepEscapesQuotes(s: string)
    ensures ReplaceChar(s, '"', "\\\"") == EscapeQuotes(s)
    decreases |s|
  {
    var rep := "\\\"";
    assert rep[1..] == "\"" && rep[1..][1..] == "";
    assert ExpandReplacement(rep[1..][1..], "\"") == "";
    assert ExpandReplacement(rep[1..], "\"") == "\"";
    assert ExpandReplacement(rep, "\"") == "\\\"";
    if |s| > 0 {
      QuoteStepEscapesQuotes(s[1..]);
    }
  }

  lemma EscapeQuotesHead(s: string)
    ensures |EscapeQuotes(s)| > 0 ==> EscapeQuotes(s)[0] != '"'
  {
  }

  /** Unescaping undoes the escaping. */
  lemma {:induction false} UnescapeEscapeQuotes(s: string)
    ensures Unescape(EscapeQuotes(s)) == s
    decreases |s|
  {
    if |s| > 0 {
      var b := EscapeQuotes(s);
      UnescapeEscapeQuotes(s[1..]);
      if s[0] == '"' {
        assert b[2..] == EscapeQuotes(s[1..]);
      } else {
        EscapeQuotesHead(s[1..]);
        assert b[1..] == EscapeQuotes(s[1..]);
        assert [s[0]] + s[1..] == s;
      }
    }
  }

  /** The body grows by one character per double quote. */
  lemma {:induction false} EscapeQuotesLength(s: string)
    ensures |EscapeQuotes(s)| == |s| + Count(s, '"')
    decreases |s|
  {
    if |s| > 0 {
      EscapeQuotesLength(s[1..]);
    }
  }

  /** Every double quote inside the body of a migrated literal directly follows a
      backslash, so under the convention the escaping follows (a backslash before
      a quote makes it part of the body) the only unescaped quotes are the
      delimiters. */
  lemma {:induction false} EscapeQuotesGuardsQuotes(s: string)
    ensures forall i :: 0 <= i < |EscapeQuotes(s)| && EscapeQuotes(s)[i] == '"' ==>
              i > 0 && EscapeQuotes(s)[i - 1] == '\\'
    decreases |s|
  {
    if |s| > 0 {
      EscapeQuotesGuardsQuotes(s[1..]);
      var h := if s[0] == '"' then "\\\"" else [s[0]];
      assert EscapeQuotes(s) == h + EscapeQuotes(s[1..]);
    }
  }

  /** Escaping adds only backslashes and quotes: any other character is in the
      body exactly when it is in the value. */
  lemma {:induction false} EscapeQuotesKeeps(s: string, c: char)
    requires c != '\\' && c != '"'
    ensures c in EscapeQuotes(s) <==> c in s
    decreases |s|
  {
    if |s| > 0 {
      EscapeQuotesKeeps(s[1..], c);
      HeadTail(s);
    }
  }

  /** A backslash is copied unescaped: the single-character value `\` becomes the
      three-character literal `"\"`. */
  lemma LoneBackslashIsNotDoubled()
    ensures MigrateLegacyString("\\") == "\"\\\""
  {
    assert EscapeQuotes("\\") == "\\";
  }
}

=== FILE: Migration.dfy ===
/** Turning one legacy (Icinga 1.x) object into an Icinga 2 object definition:
    `setAttributesFromIcingaObjectDefinition` and `fromIcingaObjectDefinition`.

    The concrete object classes (commands and host groups) differ only in data:
    their Icinga 2 type, the map from legacy attribute names to Icinga 2 property
    names, the set of attributes whose values are comma-separated lists, and the
    override handlers (`convert<Key>` methods). A `Variant` carries that data. A
    handler is modelled by the edits it makes to the object for a given value. */
module Migration {
  import opened Strings
  import opened Results
  import opened Values
  import opened ObjectDefinitions

  /** One change an override handler makes to the object. */
  datatype Edit =
    | SetAttribute(key: string, value: Value)
    | AddAssign(expr: string)
    | AddIgnore(expr: string)

  /** An override handler: the edits it makes for a legacy value. */
  type Handler = string -> seq<Edit>

  /** The data of one concrete object class. `handlers` is keyed by the
      lower-cased method name, because PHP looks methods up case-insensitively;
      a handler stored under a name that is not lower case is never found. */
  datatype Variant = Variant(
    typeName: string,
    attributeMap: map<string, string>,
    arrayProperties: set<string>,
    handlers: map<string, Handler>)

  /** The two object classes the migrator knows. */
  datatype Kind = Command | Hostgroup

  datatype Catalog = Catalog(command: Variant, hostgroup: Variant)

  function VariantOf(c: Catalog, k: Kind): Variant {
    match k
    case Command => c.command
    case Hostgroup => c.hostgroup
  }

  /** A parsed legacy object: its name (its string form), its definition type and
      its attributes in source order. */
  datatype LegacyObject = LegacyObject(name: string, definitionType: string, attributes: seq<(string, string)>)

  /** The two ways a migration fails (`Icinga2ConfigMigrationException`). */
  datatype MigrationError =
    | UnknownObjectType(objectName: string, objectType: string)
    | UnconvertibleProperty(key: string)

  datatype Migrated = Migrated(kind: Kind, definition: ObjectDef)

  // ---------------------------------------------------------------------------
  // Override handlers

  /** The method `method_exists` looks for: `'convert' . ucfirst($key)`, compared
      without regard to case. */
  function HandlerName(key: string): string {
    Lower("convert" + UcFirst(key))
  }

  lemma LowerUcFirst(s: string)
    ensures Lower(UcFirst(s)) == Lower(s)
  {
    if |s| > 0 {
      assert UcFirst(s) == [UcFirst(s)[0]] + s[1..];
      assert s == [s[0]] + s[1..];
      LowerAppend([UcFirst(s)[0]], s[1..]);
      LowerAppend([s[0]], s[1..]);
    }
  }

  /** Because method lookup ignores case, `ucfirst` makes no difference: keys that
      differ only in the case of their letters reach the same handler. */
  lemma HandlerNameIgnoresCase(a: string, b: string)
    requires Lower(a) == Lower(b)
    ensures HandlerName(a) == HandlerName(b)
  {
    LowerAppend("convert", UcFirst(a));
    LowerAppend("convert", UcFirst(b));
    LowerUcFirst(a);
    LowerUcFirst(b);
  }

  predicate HasHandler(v: Variant, key: string) {
    HandlerName(key) in v.handlers
  }

  /** A key the variant can convert: it has a handler or a map entry. */
  predicate Convertible(v: Variant, key: string) {
    HasHandler(v, key) || key in v.attributeMap
  }

  function ApplyEdit(d: ObjectDef, e: Edit): ObjectDef {
    match e
    case SetAttribute(k, x) => SetProperty(d, k, x)
    case AddAssign(x) => AssignWhere(d, x)
    case AddIgnore(x) => IgnoreWhere(d, x)
  }

  /** The `assign where` expression an edit adds, if any. */
  function AssignOf(e: Edit): seq<string> {
    if e.AddAssign? then [e.expr] else []
  }

  /** The `ignore where` expression an edit adds, if any. */
  function IgnoreOf(e: Edit): seq<string> {
    if e.AddIgnore? then [e.expr] else []
  }

  /** The `assign where` expressions of the edits, in order. */
  function AssignExprs(es: seq<Edit>): seq<string> {
    if |es| == 0 then [] else AssignOf(es[0]) + AssignExprs(es[1..])
  }

  /** The `ignore where` expressions of the edits, in order. */
  function IgnoreExprs(es: seq<Edit>): seq<string> {
    if |es| == 0 then [] else IgnoreOf(es[0]) + IgnoreExprs(es[1..])
  }

  /** The value the last edit that sets property `k` writes, if any edit does. */
  function LastSet(es: seq<Edit>, k: string): Option<Value> {
    if |es| == 0 then None
    else match LastSet(es[1..], k)
      case Some(x) => Some(x)
      case None => if es[0].SetAttribute? && es[0].key == k then Some(es[0].value) else None
  }

  /** The handler's edits in order, each with its effect: the added rules follow
      the existing ones in the order of the edits, a property holds what the last
      edit that sets it writes (or what it held before when no edit sets it), and
      type and name are never touched. */
  function ApplyEdits(d: ObjectDef, es: seq<Edit>): (r: ObjectDef)
    ensures r.typeName == d.typeName && r.name == d.name
    ensures r.assigns == d.assigns + AssignExprs(es)
    ensures r.ignores == d.ignores + IgnoreExprs(es)
    ensures forall k :: Lookup(r.properties, k) == if LastSet(es, k).Some? then LastSet(es, k) else Lookup(d.properties, k)
    decreases |es|
  {
    if |es| == 0 then
      assert d.assigns + [] == d.assigns && d.ignores + [] == d.ignores;
      d
    else
      var d1 := ApplyEdit(d, es[0]);
      AppendAssoc(d.assigns, AssignOf(es[0]), AssignExprs(es[1..]));
      AppendAssoc(d.ignores, IgnoreOf(es[0]), IgnoreExprs(es[1..]));
      var r := ApplyEdits(d1, es[1..]);
      assert forall k :: Lookup(r.properties, k) == if LastSet(es, k).Some? then LastSet(es, k) else Lookup(d.properties, k) by {
        forall k ensures Lookup(r.properties, k) == if LastSet(es, k).Some? then LastSet(es, k) else Lookup(d.properties, k) {
          LastSetStep(d, es, k);
        }
      }
      r
  }

  /** What property `k` holds after the first edit and the rest, is what it holds
      after all of them. */
  lemma LastSetStep(d: ObjectDef, es: seq<Edit>, k: string)
    requires |es| > 0
    ensures (if LastSet(es[1..], k).Some? then LastSet(es[1..], k) else Lookup(ApplyEdit(d, es[0]).properties, k))
            == (if LastSet(es, k).Some? then LastSet(es, k) else Lookup(d.properties, k))
  {
  }

  /** Edits keep the property keys unique. */
  lemma {:induction false} ApplyEditsKeepsUniqueKeys(d: ObjectDef, es: seq<Edit>)
    requires UniqueKeys(d.properties)
    ensures UniqueKeys(ApplyEdits(d, es).properties)
    decreases |es|
  {
    if |es| > 0 {
      if es[0].SetAttribute? {
        PutKeepsUniqueKeys(d.properties, es[0].key, es[0].value);
      }
      ApplyEditsKeepsUniqueKeys(ApplyEdit(d, es[0]), es[1..]);
    }
  }

  // ---------------------------------------------------------------------------
  // Attribute conversion

  /** One iteration of the loop in `setAttributesFromIcingaObjectDefinition`. */
  function ConvertAttribute(v: Variant, d: ObjectDef, key: string, value: string): (r: Result<ObjectDef, MigrationError>)
    ensures r.Failure? <==> !Convertible(v, key)
    ensures r.Failure? ==> r.error == UnconvertibleProperty(key)
    ensures r.Success? ==> r.value.typeName == d.typeName && r.value.name == d.name
    ensures !HasHandler(v, key) && key in v.attributeMap ==>
              r.Success?
              && Lookup(r.value.properties, v.attributeMap[key]) == Some(MigrateValue(value, Some(key), v.arrayProperties))
              && (forall k :: k != v.attributeMap[key] ==> Lookup(r.value.properties, k) == Lookup(d.properties, k))
              && r.value.assigns == d.assigns && r.value.ignores == d.ignores
    ensures UniqueKeys(d.properties) && r.Success? ==> UniqueKeys(r.value.properties)
  {
    if HasHandler(v, key) then
      var es := v.handlers[HandlerName(key)](value);
      assert UniqueKeys(d.properties) ==> UniqueKeys(ApplyEdits(d, es).properties) by {
        if UniqueKeys(d.properties) { ApplyEditsKeepsUniqueKeys(d, es); }
      }
      Success(ApplyEdits(d, es))
    else if key !in v.attributeMap then
      Failure(UnconvertibleProperty(key))
    else
      var x := MigrateValue(value, Some(key), v.arrayProperties);
      assert UniqueKeys(d.properties) ==> UniqueKeys(Put(d.properties, v.attributeMap[key], x)) by {
        if UniqueKeys(d.properties) { PutKeepsUniqueKeys(d.properties, v.attributeMap[key], x); }
      }
      Success(SetProperty(d, v.attributeMap[key], x))
  }

  /** A handler takes precedence: whether the key also has a map entry, and which
      one, makes no difference. */
  lemma HandlerTakesPrecedence(v: Variant, d: ObjectDef, key: string, value: string, target: string)
    requires HasHandler(v, key)
    ensures ConvertAttribute(v, d, key, value) == Success(ApplyEdits(d, v.handlers[HandlerName(key)](value)))
    ensures ConvertAttribute(v.(attributeMap := v.attributeMap[key := target]), d, key, value)
            == ConvertAttribute(v.(attributeMap := v.attributeMap - {key}), d, key, value)
  {
  }

  /** The position of the first attribute the variant cannot convert, if any. */
  function FirstUnconvertible(v: Variant, attrs: seq<(string, string)>): (r: Option<nat>)
    ensures r.Some? ==> r.value < |attrs| && !Convertible(v, attrs[r.value].0)
  {
    if |attrs| == 0 then None
    else if !Convertible(v, attrs[0].0) then Some(0)
    else match FirstUnconvertible(v, attrs[1..])
      case None => None
      case Some(i) => Some(i + 1)
  }

  /** Every attribute before the one `FirstUnconvertible` finds, and every
      attribute when it finds none, can be converted. */
  lemma {:induction false} FirstUnconvertibleIsFirst(v: Variant, attrs: seq<(string, string)>)
    ensures FirstUnconvertible(v, attrs).Some? ==>
              forall i :: 0 <= i < FirstUnconvertible(v, attrs).value ==> Convertible(v, attrs[i].0)
    ensures FirstUnconvertible(v, attrs).None? ==>
              forall i :: 0 <= i < |attrs| ==> Convertible(v, attrs[i].0)
    decreases |attrs|
  {
    if |attrs| > 0 && Convertible(v, attrs[0].0) {
      FirstUnconvertibleIsFirst(v, attrs[1..]);
      assert forall i :: 0 < i < |attrs| ==> attrs[i] == attrs[1..][i - 1];
    }
  }

  /** `setAttributesFromIcingaObjectDefinition`: converts the attributes in order
      and stops at the first one that cannot be converted. */
  function SetAttributes(v: Variant, d: ObjectDef, attrs: seq<(string, string)>): (r: Result<ObjectDef, MigrationError>)
    ensures r.Failure? <==> FirstUnconvertible(v, attrs).Some?
    ensures r.Failure? ==> r.error == UnconvertibleProperty(attrs[FirstUnconvertible(v, attrs).value].0)
    ensures r.Success? ==> r.value.typeName == d.typeName && r.value.name == d.name
    ensures UniqueKeys(d.properties) && r.Success? ==> UniqueKeys(r.value.properties)
    decreases |attrs|
  {
    if |attrs| == 0 then Success(d)
    else
      var c := ConvertAttribute(v, d, attrs[0].0, attrs[0].1);
      if c.Failure? then Failure(c.error)
      else
        var r := SetAttributes(v, c.value, attrs[1..]);
        assert r.Failure? ==> attrs[1..][FirstUnconvertible(v, attrs[1..]).value] == attrs[FirstUnconvertible(v, attrs).value];
        r
  }

  /** A single attribute is converted exactly as `ConvertAttribute` converts it. */
  lemma SetAttributesOne(v: Variant, d: ObjectDef, key: string, value: string)
    ensures SetAttributes(v, d, [(key, value)]) == ConvertAttribute(v, d, key, value)
  {
    assert [(key, value)][1..] == [];
  }

  /** The attributes are converted one after the other: converting `a + b` is
      converting `a`, then converting `b` on the result, and a failure in `a`
      ends the loop. */
  lemma {:induction false} SetAttributesAppend(v: Variant, d: ObjectDef, a: seq<(string, string)>, b: seq<(string, string)>)
    ensures SetAttributes(v, d, a).Failure? ==> SetAttributes(v, d, a + b) == SetAttributes(v, d, a)
    ensures SetAttributes(v, d, a).Success? ==> SetAttributes(v, d, a + b) == SetAttributes(v, SetAttributes(v, d, a).value, b)
    decreases |a|
  {
    if |a| == 0 {
      assert a + b == b;
    } else {
      assert (a + b)[0] == a[0] && (a + b)[1..] == a[1..] + b;
      var c := ConvertAttribute(v, d, a[0].0, a[0].1);
      if c.Success? {
        SetAttributesAppend(v, c.value, a[1..], b);
      }
    }
  }

  /** A migration fails exactly when some attribute has neither a handler nor a map entry. */
  lemma SetAttributesFails(v: Variant, d: ObjectDef, attrs: seq<(string, string)>)
    ensures SetAttributes(v, d, attrs).Failure? <==> exists i :: 0 <= i < |attrs| && !Convertible(v, attrs[i].0)
  {
    FirstUnconvertibleIsFirst(v, attrs);
    if SetAttributes(v, d, attrs).Failure? {
      var i := FirstUnconvertible(v, attrs).value;
      assert !Convertible(v, attrs[i].0);
    }
  }

  /** The properties that mapped attributes produce, in attribute order. */
  function MappedProperties(v: Variant, attrs: seq<(string, string)>): seq<Property>
  {
    if |attrs| == 0 then []
    else if attrs[0].0 !in v.attributeMap then MappedProperties(v, attrs[1..])
    else
      [Property(v.attributeMap[attrs[0].0], MigrateValue(attrs[0].1, Some(attrs[0].0), v.arrayProperties))]
      + MappedProperties(v, attrs[1..])
  }

  /** Every attribute goes through the attribute map (no handler), and the
      property names it leads to are all different and not in `taken`. */
  predicate PlainlyMapped(v: Variant, attrs: seq<(string, string)>, taken: seq<string>)
    decreases |attrs|
  {
    |attrs| == 0
    || (attrs[0].0 in v.attributeMap && !HasHandler(v, attrs[0].0)
        && v.attributeMap[attrs[0].0] !in taken
        && PlainlyMapped(v, attrs[1..], taken + [v.attributeMap[attrs[0].0]]))
  }

  /** Attributes without handlers whose map entries lead to different new property
      names become one property each, in source order, after the properties the
      object already had; the rules are untouched. */
  lemma {:induction false} MappedAttributesInOrder(v: Variant, d: ObjectDef, attrs: seq<(string, string)>)
    requires PlainlyMapped(v, attrs, Keys(d.properties))
    ensures SetAttributes(v, d, attrs) == Success(d.(properties := d.properties + MappedProperties(v, attrs)))
    decreases |attrs|
  {
    if |attrs| == 0 {
      assert d.properties + [] == d.properties;
    } else {
      var h, d' := MappedHead(v, d, attrs);
      MappedAttributesInOrder(v, d', attrs[1..]);
      AppendAssoc(d.properties, [h], MappedProperties(v, attrs[1..]));
    }
  }

  /** The first mapped attribute appends its property `h`; the rest still meet the
      condition of `MappedAttributesInOrder`. */
  lemma MappedHead(v: Variant, d: ObjectDef, attrs: seq<(string, string)>) returns (h: Property, d': ObjectDef)
    requires |attrs| > 0 && PlainlyMapped(v, attrs, Keys(d.properties))
    ensures SetAttributes(v, d, attrs) == SetAttributes(v, d', attrs[1..])
    ensures MappedProperties(v, attrs) == [h] + MappedProperties(v, attrs[1..])
    ensures d' == d.(properties := d.properties + [h])
    ensures PlainlyMapped(v, attrs[1..], Keys(d'.properties))
  {
    var key := attrs[0].0;
    h := Property(v.attributeMap[key], MigrateValue(attrs[0].1, Some(key), v.arrayProperties));
    PutAppends(d.properties, h.key, h.value);
    d' := SetProperty(d, h.key, h.value);
    assert ConvertAttribute(v, d, key, attrs[0].1) == Success(d');
  }

  // ---------------------------------------------------------------------------
  // Type dispatch

  /** `fromIcingaObjectDefinition`: a `command` becomes a command, a `hostgroup` a
      host group, anything else is refused. The new object is named after the
      legacy object, takes the type of its class, and holds what converting the
      legacy attributes with that class's data gives. */
  function FromLegacy(c: Catalog, o: LegacyObject): (r: Result<Migrated, MigrationError>)
    ensures o.definitionType != "command" && o.definitionType != "hostgroup"
            ==> r == Failure(UnknownObjectType(o.name, o.definitionType))
    ensures r.Success? ==> (r.value.kind == Command <==> o.definitionType == "command")
    ensures r.Success? ==> (r.value.kind == Hostgroup <==> o.definitionType == "hostgroup")
    ensures r.Success? ==> r.value.definition.name == o.name
                           && r.value.definition.typeName == VariantOf(c, r.value.kind).typeName
    ensures r.Failure? && (o.definitionType == "command" || o.definitionType == "hostgroup")
            ==> r.error.UnconvertibleProperty?
    ensures r.Success? ==>
              SetAttributes(VariantOf(c, r.value.kind), NewDefinition(VariantOf(c, r.value.kind).typeName, o.name), o.attributes)
              == Success(r.value.definition)
    ensures r.Success? ==> UniqueKeys(r.value.definition.properties)
  {
    match o.definitionType
    case "command" =>
      var d :- SetAttributes(c.command, NewDefinition(c.command.typeName, o.name), o.attributes);
      Success(Migrated(Command, d))
    case "hostgroup" =>
      var d :- SetAttributes(c.hostgroup, NewDefinition(c.hostgroup.typeName, o.name), o.attributes);
      Success(Migrated(Hostgroup, d))
    case _ =>
      Failure(UnknownObjectType(o.name, o.definitionType))
  }

  /** A known type fails exactly when one of its attributes cannot be converted,
      and the error names the first such attribute. */
  lemma FromLegacyFailsOnAttribute(c: Catalog, o: LegacyObject, k: Kind)
    requires o.definitionType == (if k == Command then "command" else "hostgroup")
    ensures FromLegacy(c, o).Failure? <==> FirstUnconvertible(VariantOf(c, k), o.attributes).Some?
    ensures FromLegacy(c, o).Failure? ==>
              FromLegacy(c, o).error == UnconvertibleProperty(o.attributes[FirstUnconvertible(VariantOf(c, k), o.attributes).value].0)
  {
  }

  // ---------------------------------------------------------------------------
  // Error messages

  const UnknownObjectPrefix: string := "Cannot convert unknown object \""
  const OfTypeInfix: string := "\" of type \""
  const PropertyPrefix: string := "Cannot convert the \""

  /** The message of an `UnconvertibleProperty` error. The dump of the
      legacy object that PHP appends after it is not part of this model. */
  function PropertyMessage(key: string): (m: string)
    ensures PropertyPrefix + key + "\" property" <= m
  {
    PropertyPrefix + key + "\" property of given v1 object: "
  }

  /** The message of an `UnknownObjectType` error. */
  function UnknownObjectMessage(name: string, objectType: string): (m: string)
    ensures UnknownObjectPrefix + name + OfTypeInfix <= m
    ensures |m| > |objectType| && m[|m| - 1 - |objectType|..] == objectType + "\""
  {
    UnknownObjectPrefix + name + OfTypeInfix + objectType + "\""
  }

  /** The property message names the attribute: different attributes give
      different messages. */
  lemma PropertyMessageNamesKey(a: string, b: string)
    requires PropertyMessage(a) == PropertyMessage(b)
    ensures a == b
  {
    var n := |PropertyPrefix|;
    assert |a| == |b|;
    assert a == PropertyMessage(a)[n..n + |a|];
  }

  /** The two kinds of error never produce the same message. */
  lemma MessagesTellKindsApart(key: string, name: string, objectType: string)
    ensures PropertyMessage(key) != UnknownObjectMessage(name, objectType)
  {
    assert PropertyMessage(key)[15] == 't';
    assert UnknownObjectMessage(name, objectType)[15] == 'u';
  }
}

=== FILE: ObjectDefinitions.dfy ===
/** The state of an Icinga 2 object under construction: its type and name, an
    insertion-ordered property map (a PHP array with string keys), and the
    `assign where` and `ignore where` expressions in the order they were added. */
module ObjectDefinitions {
  import opened Strings
  import opened Results
  import opened Values

  /** One entry of the property map. */
  datatype Property = Property(key: string, value: Value)

  /** An Icinga 2 object definition. `typeName` is the `$type` a subclass declares,
      `name` the name given to the constructor. */
  datatype ObjectDef = ObjectDef(
    typeName: string,
    name: string,
    properties: seq<Property>,
    assigns: seq<string>,
    ignores: seq<string>)

  /** The constructor: a new object of the class's type with the given name,
      no property set under any key, and no assign or ignore rules yet. */
  function NewDefinition(typeName: string, name: string): (r: ObjectDef)
    ensures r.typeName == typeName && r.name == name
    ensures forall k :: Lookup(r.properties, k) == None
    ensures UniqueKeys(r.properties)
    ensures |r.assigns| == 0 && |r.ignores| == 0
  {
    ObjectDef(typeName, name, [], [], [])
  }

  /** The keys of the map, in insertion order. */
  function Keys(ps: seq<Property>): (r: seq<string>)
    ensures |r| == |ps|
    ensures forall i :: 0 <= i < |ps| ==> r[i] == ps[i].key
  {
    if |ps| == 0 then [] else [ps[0].key] + Keys(ps[1..])
  }

  /** A PHP array never holds a key twice. */
  predicate UniqueKeys(ps: seq<Property>) {
    forall i, j :: 0 <= i < j < |ps| ==> ps[i].key != ps[j].key
  }

  /** `$properties[$key]`: the value stored under `key`, if any. */
  function Lookup(ps: seq<Property>, key: string): Option<Value> {
    if |ps| == 0 then None
    else if ps[0].key == key then Some(ps[0].value)
    else Lookup(ps[1..], key)
  }

  /** `$properties[$key] = $val`: overwrites the value of an existing key where it
      stands, or appends a new entry at the end. */
  function Put(ps: seq<Property>, key: string, val: Value): (r: seq<Property>)
    ensures Lookup(r, key) == Some(val)
    ensures forall k :: k != key ==> Lookup(r, k) == Lookup(ps, k)
    ensures key in Keys(ps) ==> Keys(r) == Keys(ps)
    ensures key !in Keys(ps) ==> Keys(r) == Keys(ps) + [key]
  {
    if |ps| == 0 then [Property(key, val)]
    else if ps[0].key == key then [Property(key, val)] + ps[1..]
    else [ps[0]] + Put(ps[1..], key, val)
  }

  /** Setting a property keeps the keys unique. */
  lemma PutKeepsUniqueKeys(ps: seq<Property>, key: string, val: Value)
    requires UniqueKeys(ps)
    ensures UniqueKeys(Put(ps, key, val))
  {
    var r := Put(ps, key, val);
    forall i, j | 0 <= i < j < |r|
      ensures r[i].key != r[j].key
    {
      assert Keys(r)[i] == r[i].key && Keys(r)[j] == r[j].key;
      if key !in Keys(ps) && j == |ps| {
        assert Keys(ps)[i] == ps[i].key;
      }
    }
  }

  /** An existing key keeps its position: only its value changes. */
  lemma {:induction false} PutInPlace(ps: seq<Property>, key: string, val: Value, i: nat)
    requires UniqueKeys(ps) && i < |ps| && ps[i].key == key
    ensures Put(ps, key, val) == ps[i := Property(key, val)]
    decreases |ps|
  {
    HeadTail(ps);
    if i == 0 {
      ConsUpdate(ps[0], ps[1..], 0, Property(key, val));
    } else {
      assert ps[0].key != key;
      PutInPlace(ps[1..], key, val, i - 1);
      ConsUpdate(ps[0], ps[1..], i, Property(key, val));
    }
  }

  /** A new key goes to the end. */
  lemma {:induction false} PutAppends(ps: seq<Property>, key: string, val: Value)
    requires key !in Keys(ps)
    ensures Put(ps, key, val) == ps + [Property(key, val)]
    decreases |ps|
  {
    if |ps| > 0 {
      assert Keys(ps) == [ps[0].key] + Keys(ps[1..]);
      PutAppends(ps[1..], key, val);
      HeadTail(ps);
      AppendAssoc([ps[0]], ps[1..], [Property(key, val)]);
    }
  }

  /** Updating position `i` of `[x] + s`: the head is replaced when `i` is 0,
      otherwise position `i - 1` of `s`. */
  lemma ConsUpdate(x: Property, s: seq<Property>, i: nat, p: Property)
    requires i <= |s|
    ensures ([x] + s)[i := p] == if i == 0 then [p] + s else [x] + s[i - 1 := p]
  {
  }

  /** `__set`: every property write of the object goes to the property map. */
  function SetProperty(d: ObjectDef, key: string, val: Value): ObjectDef {
    d.(properties := Put(d.properties, key, val))
  }

  /** `assignWhere`: appends one `assign where` expression and changes nothing else. */
  function AssignWhere(d: ObjectDef, expr: string): (r: ObjectDef)
    ensures r.assigns == d.assigns + [expr]
    ensures r.(assigns := d.assigns) == d
  {
    d.(assigns := d.assigns + [expr])
  }

  /** `ignoreWhere`: appends one `ignore where` expression and changes nothing else. */
  function IgnoreWhere(d: ObjectDef, expr: string): (r: ObjectDef)
    ensures r.ignores == d.ignores + [expr]
    ensures r.(ignores := d.ignores) == d
  {
    d.(ignores := d.ignores + [expr])
  }

  /** Assign and ignore rules are kept apart: adding one of each gives the same
      object in either order, and the properties are never touched. */
  lemma RuleListsAreIndependent(d: ObjectDef, a: string, i: string)
    ensures AssignWhere(IgnoreWhere(d, i), a) == IgnoreWhere(AssignWhere(d, a), i)
    ensures AssignWhere(IgnoreWhere(d, i), a).properties == d.properties
  {
  }
}

=== FILE: Rendering.dfy ===
/** Rendering an object definition as Icinga 2 configuration text:
    `renderArray`, `getAttributesAsString`, `getAssignmentsAsString` and
    `__toString`.

    What the text means is stated by reading it back: `ReadArray` tokenizes the
    array syntax the renderer writes, and `Lines` is the object's text cut at its
    line feeds. */
module Rendering {
  import opened Strings
  import opened Results
  import opened Escaping
  import opened Splitting
  import opened Values
  import opened ObjectDefinitions

  // ---------------------------------------------------------------------------
  // Arrays

  /** The elements of an array, each through `migrateLegacyString`, in order. */
  function QuoteItems(items: seq<string>): (r: seq<string>)
    ensures |r| == |items|
    ensures forall i :: 0 <= i < |items| ==> r[i] == MigrateLegacyString(items[i])
  {
    if |items| == 0 then [] else [MigrateLegacyString(items[0])] + QuoteItems(items[1..])
  }

  /** `renderArray`: the quoted elements between `[ ` and ` ]`, separated by `, `.
      What the text holds is stated by `RenderArrayReadsBack`. */
  function RenderArray(items: seq<string>): (r: string)
    ensures |r| >= 4 && r[..2] == "[ " && r[|r| - 2..] == " ]"
    ensures |items| == 0 <==> r == "[  ]"
    ensures |items| > 0 ==> r[2] == '"'
  {
    "[ " + Join(QuoteItems(items), ", ") + " ]"
  }

  predicate EndsWithBackslash(s: string) {
    |s| > 0 && s[|s| - 1] == '\\'
  }

  /** Reads the body of a string literal from the text just after its opening
      quote, under the convention `migrateLegacyString` escapes for: a backslash
      before a quote stands for the quote, any other backslash for itself, and the
      first quote without a backslash closes the literal. Gives the body and the
      text after it. */
  function ReadLiteral(s: string): (r: Option<(string, string)>)
    ensures r.Some? ==> |r.value.1| < |s|
    decreases |s|
  {
    if |s| == 0 then None
    else if s[0] == '"' then Some(("", s[1..]))
    else
      var n := if |s| >= 2 && s[0] == '\\' && s[1] == '"' then 2 else 1;
      match ReadLiteral(s[n..])
      case None => None
      case Some((b, rest)) => Some(([s[n - 1]] + b, rest))
  }

  /** Reads the elements of an array from the text just after its `[ `. */
  function ReadItems(s: string): Option<seq<string>>
    decreases |s|
  {
    if |s| == 0 || s[0] != '"' then None
    else match ReadLiteral(s[1..])
      case None => None
      case Some((b, rest)) =>
        if rest == " ]" then Some([b])
        else if |rest| >= 2 && rest[..2] == ", " then
          match ReadItems(rest[2..])
          case None => None
          case Some(bs) => Some([b] + bs)
        else None
  }

  /** Reads an array in the layout `renderArray` writes. */
  function ReadArray(t: string): Option<seq<string>> {
    if t == "[  ]" then Some([])
    else if |t| >= 2 && t[..2] == "[ " then ReadItems(t[2..])
    else None
  }

  /** The tokenizer reads a migrated literal back, closing quote and all, as long
      as the value does not end with a backslash. */
  lemma {:induction false} ReadEscapedLiteral(x: string, rest: string)
    requires !EndsWithBackslash(x)
    ensures ReadLiteral(EscapeQuotes(x) + "\"" + rest) == Some((x, rest))
    decreases |x|
  {
    var s := EscapeQuotes(x) + "\"" + rest;
    if |x| == 0 {
      assert s[1..] == rest;
    } else {
      var h := if x[0] == '"' then "\\\"" else [x[0]];
      var e := EscapeQuotes(x[1..]);
      var t := e + "\"" + rest;
      assert !EndsWithBackslash(x[1..]);
      ReadEscapedLiteral(x[1..], rest);
      AppendAssoc(h, e, "\"");
      AppendAssoc(h, e + "\"", rest);
      assert s == h + t;
      if x[0] == '\\' {
        EscapeQuotesLength(x[1..]);
        EscapeQuotesHead(x[1..]);
        assert t[0] != '"';
      }
      assert s[|h|..] == t;
      assert [s[|h| - 1]] + x[1..] == x;
    }
  }

  /** The last element of an array reads back. */
  lemma ReadLastItem(x: string)
    requires !EndsWithBackslash(x)
    ensures ReadItems(MigrateLegacyString(x) + " ]") == Some([x])
  {
    LiteralThen(x, " ]");
    ReadEscapedLiteral(x, " ]");
    ReadItemsStep(MigrateLegacyString(x) + " ]", x, " ]");
  }

  /** An element followed by `, ` reads back, and reading goes on after the separator. */
  lemma ReadNextItem(x: string, tail: string)
    requires !EndsWithBackslash(x)
    ensures ReadItems(MigrateLegacyString(x) + ", " + tail)
            == match ReadItems(tail) case None => None case Some(bs) => Some([x] + bs)
  {
    var rest := ", " + tail;
    AppendAssoc(MigrateLegacyString(x), ", ", tail);
    LiteralThen(x, rest);
    ReadEscapedLiteral(x, rest);
    ReadItemsStep(MigrateLegacyString(x) + rest, x, rest);
    assert rest[0] == ',' && rest[..2] == ", " && rest[2..] == tail;
  }

  /** A migrated literal followed by more text: the opening quote, then the
      escaped body, the closing quote and the text. */
  lemma LiteralThen(x: string, rest: string)
    ensures (MigrateLegacyString(x) + rest)[0] == '"'
    ensures (MigrateLegacyString(x) + rest)[1..] == EscapeQuotes(x) + "\"" + rest
  {
    QuotedThen(EscapeQuotes(x), rest);
  }

  lemma QuotedThen(e: string, rest: string)
    ensures ("\"" + e + "\"" + rest)[0] == '"'
    ensures ("\"" + e + "\"" + rest)[1..] == e + "\"" + rest
  {
  }

  /** `ReadItems` on text that starts with a literal: what follows the literal
      decides between the last element and the next one. */
  lemma ReadItemsStep(s: string, x: string, rest: string)
    requires |s| > 0 && s[0] == '"' && ReadLiteral(s[1..]) == Some((x, rest))
    ensures ReadItems(s) == if rest == " ]" then Some([x])
                            else if |rest| >= 2 && rest[..2] == ", " then
                              (match ReadItems(rest[2..]) case None => None case Some(bs) => Some([x] + bs))
                            else None
  {
  }

  /** The quoted elements, joined and closed, read back as the elements. */
  lemma {:induction false} ReadQuotedItems(items: seq<string>)
    requires |items| > 0
    requires forall i :: 0 <= i < |items| ==> !EndsWithBackslash(items[i])
    ensures ReadItems(Join(QuoteItems(items), ", ") + " ]") == Some(items)
    decreases |items|
  {
    if |items| == 1 {
      ReadLastItem(items[0]);
      assert items == [items[0]];
    } else {
      var j := Join(QuoteItems(items[1..]), ", ");
      JoinQuotedCons(items);
      AppendAssoc(MigrateLegacyString(items[0]) + ", ", j, " ]");
      ReadNextItem(items[0], j + " ]");
      ReadQuotedItems(items[1..]);
      HeadTail(items);
    }
  }

  lemma JoinQuotedCons(items: seq<string>)
    requires |items| >= 2
    ensures Join(QuoteItems(items), ", ") == MigrateLegacyString(items[0]) + ", " + Join(QuoteItems(items[1..]), ", ")
  {
    assert QuoteItems(items)[1..] == QuoteItems(items[1..]);
  }

  /** An array reads back as its elements, unless one of them ends with a
      backslash: `migrateLegacyString` does not double backslashes. */
  lemma RenderArrayReadsBack(items: seq<string>)
    requires forall i :: 0 <= i < |items| ==> !EndsWithBackslash(items[i])
    ensures ReadArray(RenderArray(items)) == Some(items)
  {
    if |items| > 0 {
      ReadQuotedItems(items);
      var qs := QuoteItems(items);
      var t := RenderArray(items);
      assert Join(qs, ", ")[0] == '"';
      assert t[2] == '"';
      assert t[2..] == Join(qs, ", ") + " ]";
    }
  }

  /** The empty array is `[  ]`, with two spaces. */
  lemma EmptyArray()
    ensures RenderArray([]) == "[  ]"
    ensures ReadArray("[  ]") == Some([])
  {
  }

  /** An element that ends with a backslash is rendered so that the backslash
      escapes the closing quote, and the array no longer reads back. */
  lemma TrailingBackslashIsMisread(s: string)
    requires s == "a\\"
    ensures RenderArray([s]) == "[ \"a\\\" ]"
    ensures ReadArray(RenderArray([s])) == None
  {
    assert s[1..] == "\\" && s[1..][1..] == "";
    assert EscapeQuotes(s[1..]) == s[1..];
    assert EscapeQuotes(s) == s;
    var t := RenderArray([s]);
    assert t[2..] == "\"a\\\" ]";
    var u := t[2..][1..];
    assert u == "a\\\" ]";
    assert u[1..] == "\\\" ]" && u[1..][2..] == " ]";
    assert ReadLiteral(" ]") == None;
    assert ReadLiteral(u[1..]) == None;
    assert ReadLiteral(u) == None;
  }

  /** A value that ends with a backslash leaves a backslash right before the
      closing quote, so the tokenizer reads that quote as part of the body and
      finds no end. */
  lemma {:induction false} TrailingBackslashEscapesCloser(x: string)
    requires EndsWithBackslash(x)
    ensures ReadLiteral(EscapeQuotes(x) + "\"") == None
    decreases |x|
  {
    var s := EscapeQuotes(x) + "\"";
    if |x| == 1 {
      assert s == "\\\"";
      assert s[2..] == "";
    } else {
      var h := if x[0] == '"' then "\\\"" else [x[0]];
      var e := EscapeQuotes(x[1..]);
      var t := e + "\"";
      assert EndsWithBackslash(x[1..]);
      TrailingBackslashEscapesCloser(x[1..]);
      AppendAssoc(h, e, "\"");
      assert s == h + t;
      EscapeQuotesLength(x[1..]);
      EscapeQuotesHead(x[1..]);
      assert t[0] != '"';
      assert s[|h|..] == t;
    }
  }

  /** A scalar that `migrateValue` quotes reads back through the tokenizer, the
      closing quote being the last character, exactly when the value does not end
      with a backslash. */
  lemma ScalarLiteralReadsBack(s: string)
    requires !StartsWithDigit(s)
    ensures MigrateScalar(s)[0] == '"'
    ensures ReadLiteral(MigrateScalar(s)[1..]) == if EndsWithBackslash(s) then None else Some((s, ""))
  {
    var r := MigrateScalar(s);
    assert r[1..] == EscapeQuotes(s) + "\"";
    if EndsWithBackslash(s) {
      TrailingBackslashEscapesCloser(s);
    } else {
      ReadEscapedLiteral(s, "");
      assert EscapeQuotes(s) + "\"" + "" == EscapeQuotes(s) + "\"";
    }
  }

  /** The scalar `a\` becomes `"a\"`: the property line never closes its literal. */
  lemma ScalarTrailingBackslashIsMisread(s: string)
    requires s == "a\\"
    ensures MigrateScalar(s) == "\"a\\\""
    ensures ReadLiteral(MigrateScalar(s)[1..]) == None
  {
    assert s[1..] == "\\" && s[1..][1..] == "";
    assert EscapeQuotes(s[1..]) == s[1..];
    assert EscapeQuotes(s) == s;
    ScalarLiteralReadsBack(s);
  }

  /** Reads a literal body under the convention that a backslash escapes whatever
      character follows it, so that `\\` stands for one backslash and `\"` for a
      quote; the first quote not escaped this way closes the literal. This is the
      syntax a doubling of backslashes would have been written for. */
  function ReadEscapingLiteral(s: string): (r: Option<(string, string)>)
    ensures r.Some? ==> |r.value.1| < |s|
    decreases |s|
  {
    if |s| == 0 then None
    else if s[0] == '"' then Some(("", s[1..]))
    else
      var n := if s[0] == '\\' && |s| >= 2 then 2 else 1;
      match ReadEscapingLiteral(s[n..])
      case None => None
      case Some((b, rest)) => Some(([s[n - 1]] + b, rest))
  }

  /** Without backslashes in the value the two conventions agree: the migrated
      literal reads back as the value under the escaping convention too. */
  lemma {:induction false} ReadEscapingLiteralWithoutBackslash(x: string, rest: string)
    requires '\\' !in x
    ensures ReadEscapingLiteral(EscapeQuotes(x) + "\"" + rest) == Some((x, rest))
    decreases |x|
  {
    var s := EscapeQuotes(x) + "\"" + rest;
    if |x| == 0 {
      assert s[1..] == rest;
    } else {
      var h := if x[0] == '"' then "\\\"" else [x[0]];
      var e := EscapeQuotes(x[1..]);
      var t := e + "\"" + rest;
      assert '\\' !in x[1..];
      ReadEscapingLiteralWithoutBackslash(x[1..], rest);
      AppendAssoc(h, e, "\"");
      AppendAssoc(h, e + "\"", rest);
      assert s == h + t;
      assert s[|h|..] == t;
      assert [s[|h| - 1]] + x[1..] == x;
    }
  }

  /** With a backslash before a quote in the value, the escaping convention ends
      the literal early: `a\"b` migrates to `"a\\"b"`, which reads as `a\`
      followed by the stray text `b"`. */
  lemma EscapedBackslashEndsLiteralEarly(s: string)
    requires s == "a\\\"b"
    ensures MigrateLegacyString(s) == "\"a\\\\\"b\""
    ensures ReadEscapingLiteral(MigrateLegacyString(s)[1..]) == Some(("a\\", "b\""))
  {
    EscapeQuotesExample(s);
    assert MigrateLegacyString(s)[1..] == "a\\\\\"b\"";
    EscapingReadExample(MigrateLegacyString(s)[1..]);
  }

  lemma EscapeQuotesExample(s: string)
    requires s == "a\\\"b"
    ensures EscapeQuotes(s) == "a\\\\\"b"
  {
    assert s[1..] == "\\\"b" && s[1..][1..] == "\"b" && s[1..][1..][1..] == "b";
    assert s[1..][1..][1..][1..] == "";
    assert EscapeQuotes("b") == "b";
    assert EscapeQuotes("\"b") == "\\\"b";
    assert EscapeQuotes("\\\"b") == "\\\\\"b";
  }

  lemma EscapingReadExample(t: string)
    requires t == "a\\\\\"b\""
    ensures ReadEscapingLiteral(t) == Some(("a\\", "b\""))
  {
    assert t[1..] == "\\\\\"b\"" && t[1..][2..] == "\"b\"";
    assert ReadEscapingLiteral(t[1..][2..]) == Some(("", "b\""));
    assert [t[1..][1]] + "" == "\\";
    assert ReadEscapingLiteral(t[1..]) == Some(("\\", "b\""));
    assert [t[0]] + "\\" == "a\\";
  }

  // ---------------------------------------------------------------------------
  // Property values

  /** The text of a property value: a scalar as it is, a list through `renderArray`. */
  function RenderValue(v: Value): string {
    match v
    case Scalar(t) => t
    case List(items) => RenderArray(items)
  }

  /** A legacy piece whose migrated form ends with a backslash: `migrateValue`
      leaves a piece that starts with a digit unquoted, and every other piece
      becomes a literal ending with a quote. */
  predicate MisreadPiece(p: string) {
    StartsWithDigit(p) && EndsWithBackslash(p)
  }

  /** List elements are quoted twice: `migrateValue` already made each piece a
      literal (a number stays as it is), and `renderArray` quotes that text once
      more. Reading the array back gives the migrated pieces, and reading each of
      those gives the legacy piece. */
  lemma ListValueReadsBack(value: string, key: string, arrayProperties: set<string>)
    requires key in arrayProperties
    requires forall i :: 0 <= i < |SplitComma(value)| ==> !MisreadPiece(SplitComma(value)[i])
    ensures MigrateValue(value, Some(key), arrayProperties).List?
    ensures ReadArray(RenderValue(MigrateValue(value, Some(key), arrayProperties)))
            == Some(MigrateValue(value, Some(key), arrayProperties).items)
    ensures forall i :: 0 <= i < |SplitComma(value)| ==>
              ReadScalar(MigrateValue(value, Some(key), arrayProperties).items[i]) == Some(SplitComma(value)[i])
  {
    var pieces := SplitComma(value);
    var items := MigrateValue(value, Some(key), arrayProperties).items;
    forall i | 0 <= i < |items|
      ensures !EndsWithBackslash(items[i])
    {
      assert items[i] == MigrateScalar(pieces[i]);
    }
    RenderArrayReadsBack(items);
  }

  /** The list value ` a `: one piece, quoted by `migrateValue` and then again
      by `renderArray`. */
  lemma ListRenderingExample(s: string)
    requires s == " a "
    ensures RenderValue(MigrateValue(s, Some("members"), {"members"})) == "[ \"\\\" a \\\"\" ]"
  {
    MigrateListExample(s);
    QuotedLiteralExample("\" a \"");
  }

  lemma QuotedLiteralExample(item: string)
    requires item == "\" a \""
    ensures RenderArray([item]) == "[ \"\\\" a \\\"\" ]"
  {
    EscapeQuotedItemExample(item);
    assert MigrateLegacyString(item) == "\"\\\" a \\\"\"";
    assert QuoteItems([item]) == ["\"\\\" a \\\"\""];
  }

  lemma EscapeQuotedItemExample(item: string)
    requires item == "\" a \""
    ensures EscapeQuotes(item) == "\\\" a \\\""
  {
    assert item[1..] == " a \"" && item[1..][1..] == "a \"" && item[1..][1..][1..] == " \"";
    assert item[1..][1..][1..][1..] == "\"";
    assert EscapeQuotes("\"") == "\\\"";
    assert EscapeQuotes(" \"") == " \\\"";
    assert EscapeQuotes("a \"") == "a \\\"";
    assert EscapeQuotes(" a \"") == " a \\\"";
  }

  // ---------------------------------------------------------------------------
  // Object text

  /** A property line without its line feed (`"    %s = %s\n"`). */
  function AttributeLine(p: Property): string {
    "    " + p.key + " = " + RenderValue(p.value)
  }

  function AttributeLines(ps: seq<Property>): (r: seq<string>)
    ensures |r| == |ps|
    ensures forall i :: 0 <= i < |ps| ==> r[i] == AttributeLine(ps[i])
  {
    if |ps| == 0 then [] else [AttributeLine(ps[0])] + AttributeLines(ps[1..])
  }

  const AssignPrefix: string := "    assign where "
  const IgnorePrefix: string := "    ignore where "

  /** Rule lines without their line feeds: `prefix` before every expression. */
  function RuleLines(prefix: string, es: seq<string>): (r: seq<string>)
    ensures |r| == |es|
    ensures forall i :: 0 <= i < |es| ==> r[i] == prefix + es[i]
  {
    if |es| == 0 then [] else [prefix + es[0]] + RuleLines(prefix, es[1..])
  }

  /** The first line of `"object %s \"%s\" {\n%s%s}\n\n"`. */
  function Header(d: ObjectDef): string {
    "object " + d.typeName + " \"" + d.name + "\" {"
  }

  /** The object's text cut at its line feeds: the header, one line per property
      in insertion order, the assign rules, the ignore rules, the closing brace,
      and the empty line after it. */
  function Lines(d: ObjectDef): seq<string> {
    [Header(d)] + AttributeLines(d.properties) + RuleLines(AssignPrefix, d.assigns)
    + RuleLines(IgnorePrefix, d.ignores) + ["}", ""]
  }

  /** `getAttributesAsString`: one line per property, appended in order. */
  method AttributesAsString(ps: seq<Property>) returns (str: string)
    ensures str == Unlines(AttributeLines(ps))
  {
    str := "";
    var i := 0;
    while i < |ps|
      invariant 0 <= i <= |ps|
      invariant Unlines(AttributeLines(ps)) == str + Unlines(AttributeLines(ps[i..]))
    {
      AttributeLinesFrom(ps, i);
      AppendLineAssoc(str, AttributeLine(ps[i]), Unlines(AttributeLines(ps[i + 1..])));
      str := str + AttributeLine(ps[i]) + "\n";
      i := i + 1;
    }
  }

  lemma AttributeLinesFrom(ps: seq<Property>, i: nat)
    requires i < |ps|
    ensures Unlines(AttributeLines(ps[i..])) == AttributeLine(ps[i]) + "\n" + Unlines(AttributeLines(ps[i + 1..]))
  {
    assert ps[i..][1..] == ps[i + 1..];
  }

  /** One loop of `getAssignmentsAsString`: a line per expression, appended in order. */
  method RulesAsString(prefix: string, es: seq<string>) returns (str: string)
    ensures str == Unlines(RuleLines(prefix, es))
  {
    str := "";
    var i := 0;
    while i < |es|
      invariant 0 <= i <= |es|
      invariant Unlines(RuleLines(prefix, es)) == str + Unlines(RuleLines(prefix, es[i..]))
    {
      RuleLinesFrom(prefix, es, i);
      AppendLineAssoc(str, prefix + es[i], Unlines(RuleLines(prefix, es[i + 1..])));
      str := str + (prefix + es[i]) + "\n";
      i := i + 1;
    }
  }

  lemma RuleLinesFrom(prefix: string, es: seq<string>, i: nat)
    requires i < |es|
    ensures Unlines(RuleLines(prefix, es[i..])) == prefix + es[i] + "\n" + Unlines(RuleLines(prefix, es[i + 1..]))
  {
    assert es[i..][1..] == es[i + 1..];
  }

  /** `getAssignmentsAsString`: the assign rules, then the ignore rules. */
  method AssignmentsAsString(d: ObjectDef) returns (str: string)
    ensures str == Unlines(RuleLines(AssignPrefix, d.assigns) + RuleLines(IgnorePrefix, d.ignores))
  {
    var assigns := RulesAsString(AssignPrefix, d.assigns);
    var ignores := RulesAsString(IgnorePrefix, d.ignores);
    UnlinesAppend(RuleLines(AssignPrefix, d.assigns), RuleLines(IgnorePrefix, d.ignores));
    str := assigns + ignores;
  }

  /** `__toString`: the header line, the properties, the rules, the closing brace
      and an empty line. When no field holds a line feed, the text cuts back into
      exactly those lines. */
  method ToString(d: ObjectDef) returns (text: string)
    ensures text == Unlines(Lines(d))
    ensures SingleLine(d) ==> Split(text, '\n') == Lines(d) + [""]
  {
    var attributes := AttributesAsString(d.properties);
    var rules := AssignmentsAsString(d);
    text := Header(d) + "\n" + attributes + rules + "}\n\n";
    LinesText(d);
    if SingleLine(d) {
      LinesLackLineFeeds(d);
      SplitUnlines(Lines(d));
    }
  }

  /** The text of the lines, in the layout of the format string. */
  lemma LinesText(d: ObjectDef)
    ensures Unlines(Lines(d))
            == Header(d) + "\n" + Unlines(AttributeLines(d.properties))
               + Unlines(RuleLines(AssignPrefix, d.assigns) + RuleLines(IgnorePrefix, d.ignores)) + "}\n\n"
  {
    var h, a, r1, r2 := Header(d), AttributeLines(d.properties), RuleLines(AssignPrefix, d.assigns), RuleLines(IgnorePrefix, d.ignores);
    UnlinesAppend([h] + a + r1 + r2, ["}", ""]);
    UnlinesAppend([h] + a + r1, r2);
    UnlinesAppend([h] + a, r1);
    UnlinesAppend([h], a);
    UnlinesAppend(r1, r2);
    assert Unlines(["}", ""]) == "}\n\n";
    assert Unlines([h]) == h + "\n";
    AppendAssoc(h + "\n" + Unlines(a), Unlines(r1), Unlines(r2));
  }

  /** No field of the object holds a line feed. */
  predicate SingleLine(d: ObjectDef) {
    '\n' !in d.typeName && '\n' !in d.name
    && (forall i :: 0 <= i < |d.properties| ==> SingleLineProperty(d.properties[i]))
    && (forall i :: 0 <= i < |d.assigns| ==> '\n' !in d.assigns[i])
    && (forall i :: 0 <= i < |d.ignores| ==> '\n' !in d.ignores[i])
  }

  predicate SingleLineProperty(p: Property) {
    '\n' !in p.key
    && match p.value
       case Scalar(t) => '\n' !in t
       case List(items) => forall i :: 0 <= i < |items| ==> '\n' !in items[i]
  }

  lemma RenderValueLacksLineFeed(p: Property)
    requires SingleLineProperty(p)
    ensures '\n' !in AttributeLine(p)
  {
    if p.value.List? {
      var items := p.value.items;
      var qs := QuoteItems(items);
      forall i | 0 <= i < |qs|
        ensures '\n' !in qs[i]
      {
        EscapeQuotesKeeps(items[i], '\n');
      }
      JoinLacks(qs, ", ", '\n');
    }
  }

  /** Every line of an object without line feeds in its fields is free of line feeds. */
  lemma LinesLackLineFeeds(d: ObjectDef)
    requires SingleLine(d)
    ensures NoLineFeeds(Lines(d))
  {
    var h, a := [Header(d)], AttributeLines(d.properties);
    var r1, r2 := RuleLines(AssignPrefix, d.assigns), RuleLines(IgnorePrefix, d.ignores);
    AttributeLinesLack(d.properties);
    RuleLinesLack(AssignPrefix, d.assigns);
    RuleLinesLack(IgnorePrefix, d.ignores);
    HeaderLacksLineFeed(d);
    assert NoLineFeeds(["}", ""]);
    NoLineFeedsInParts(h, a, r1, r2, ["}", ""]);
  }

  lemma HeaderLacksLineFeed(d: ObjectDef)
    requires '\n' !in d.typeName && '\n' !in d.name
    ensures NoLineFeeds([Header(d)])
  {
    assert [Header(d)][1..] == [];
  }

  lemma NoLineFeedsInParts(h: seq<string>, a: seq<string>, r1: seq<string>, r2: seq<string>, t: seq<string>)
    requires NoLineFeeds(h) && NoLineFeeds(a) && NoLineFeeds(r1) && NoLineFeeds(r2) && NoLineFeeds(t)
    ensures NoLineFeeds(h + a + r1 + r2 + t)
  {
    NoLineFeedsAppend(h, a);
    NoLineFeedsAppend(h + a, r1);
    NoLineFeedsAppend(h + a + r1, r2);
    NoLineFeedsAppend(h + a + r1 + r2, t);
  }

  lemma {:induction false} AttributeLinesLack(ps: seq<Property>)
    requires forall i :: 0 <= i < |ps| ==> SingleLineProperty(ps[i])
    ensures NoLineFeeds(AttributeLines(ps))
    decreases |ps|
  {
    if |ps| > 0 {
      RenderValueLacksLineFeed(ps[0]);
      AttributeLinesLack(ps[1..]);
      assert AttributeLines(ps)[1..] == AttributeLines(ps[1..]);
    }
  }

  lemma {:induction false} RuleLinesLack(prefix: string, es: seq<string>)
    requires '\n' !in prefix
    requires forall i :: 0 <= i < |es| ==> '\n' !in es[i]
    ensures NoLineFeeds(RuleLines(prefix, es))
    decreases |es|
  {
    if |es| > 0 {
      RuleLinesLack(prefix, es[1..]);
      assert RuleLines(prefix, es)[1..] == RuleLines(prefix, es[1..]);
    }
  }

  /** A new object renders as an empty block. */
  lemma NewDefinitionText(typeName: string, name: string)
    ensures Unlines(Lines(NewDefinition(typeName, name)))
            == "object " + typeName + " \"" + name + "\" {\n}\n\n"
  {
    LinesText(NewDefinition(typeName, name));
  }
}

=== FILE: Results.dfy ===
/** Failure-compatible result type used for the migration errors. */
module Results {

  /** Either a value or the error that aborted the computation. */
  datatype Result<+T, +E> = Success(value: T) | Failure(error: E) {

    predicate IsFailure() {
      Failure?
    }

    function PropagateFailure<U>(): Result<U, E>
      requires Failure?
    {
      Failure(error)
    }

    function Extract(): T
      requires Success?
    {
      value
    }
  }

  /** The usual Some/None datatype. */
  datatype Option<+T> = None | Some(value: T)
}

=== FILE: Splitting.dfy ===
/** `splitComma`: `preg_split` with the pattern `\s*,\s*` and `PREG_SPLIT_NO_EMPTY`.

    `SplitComma` follows what `preg_split` does with that fixed pattern: search the
    leftmost match from the end of the previous one, cut the piece before it, drop
    empty pieces. The pattern has no lookbehind, so searching the subject from the
    end of the previous match is the same as searching what remains of it from its
    start; `SplitRest` works on that remainder. `TrimFields` is an independent
    description of the same result (split at every comma, remove the whitespace
    that touches a comma, drop the empty fields), and `ScanMatchesFields` proves
    the two agree. */
module Splitting {
  import opened Strings
  import opened Results

  /** Length of the whitespace run that starts at offset `i`. */
  function SpaceRun(s: string, i: nat): (n: nat)
    requires i <= |s|
    ensures i + n <= |s|
    decreases |s| - i
  {
    if i < |s| && IsSpace(s[i]) then 1 + SpaceRun(s, i + 1) else 0
  }

  /** The run is whitespace and is followed by a non-space character or the end. */
  lemma {:induction false} SpaceRunIsMaximal(s: string, i: nat)
    requires i <= |s|
    ensures AllSpace(s[i..i + SpaceRun(s, i)])
    ensures i + SpaceRun(s, i) < |s| ==> !IsSpace(s[i + SpaceRun(s, i)])
    decreases |s| - i
  {
    if i < |s| && IsSpace(s[i]) {
      SpaceRunIsMaximal(s, i + 1);
      assert s[i..i + SpaceRun(s, i)] == [s[i]] + s[i + 1..i + 1 + SpaceRun(s, i + 1)];
    }
  }

  /** End offset of a match of `\s*,\s*` that starts at offset `i`, if any. The
      first `\s*` is greedy, and a shorter run is followed by whitespace rather
      than a comma, so backtracking cannot help: the pattern matches exactly when
      the longest run is followed by a comma. The second `\s*` then takes its
      longest run. */
  function MatchAt(s: string, i: nat): Option<nat>
    requires i <= |s|
  {
    var j := i + SpaceRun(s, i);
    if j < |s| && s[j] == ',' then Some(j + 1 + SpaceRun(s, j + 1)) else None
  }

  /** The leftmost match at or after offset `from`, as (start, end). */
  function FindSeparator(s: string, from: nat): (r: Option<(nat, nat)>)
    requires from <= |s|
    ensures r.Some? ==> from <= r.value.0 < r.value.1 <= |s|
    decreases |s| - from
  {
    if from == |s| then None
    else
      match MatchAt(s, from)
      case Some(e) => Some((from, e))
      case None => FindSeparator(s, from + 1)
  }

  /** `PREG_SPLIT_NO_EMPTY`: an empty piece is not returned. */
  function Keep(p: string): seq<string> {
    if p == "" then [] else [p]
  }

  /** The pieces of the remainder `t`, cut at successive separator matches. */
  function SplitRest(t: string): seq<string>
    decreases |t|
  {
    match FindSeparator(t, 0)
    case None => Keep(t)
    case Some((ms, me)) => Keep(t[..ms]) + SplitRest(t[me..])
  }

  /** Drops the empty strings, keeping the order of the others. */
  function NonEmpty(ps: seq<string>): seq<string>
  {
    if |ps| == 0 then [] else Keep(ps[0]) + NonEmpty(ps[1..])
  }

  /** What NonEmpty keeps is non-empty and comes from its input. */
  lemma {:induction false} NonEmptyKeeps(ps: seq<string>)
    ensures forall i :: 0 <= i < |NonEmpty(ps)| ==> NonEmpty(ps)[i] != "" && NonEmpty(ps)[i] in ps
    decreases |ps|
  {
    if |ps| > 0 {
      NonEmptyKeeps(ps[1..]);
      assert forall x :: x in ps[1..] ==> x in ps;
    }
  }

  /** Removes the whitespace next to a comma from comma-separated fields: every
      field but the first loses its leading whitespace and every field but the
      last its trailing whitespace. `first` says whether `fs[0]` is the first field. */
  function TrimFields(fs: seq<string>, first: bool): (r: seq<string>)
    ensures |r| == |fs|
  {
    if |fs| == 0 then []
    else
      var f := if first then fs[0] else TrimLeft(fs[0]);
      if |fs| == 1 then [f] else [TrimRight(f)] + TrimFields(fs[1..], false)
  }

  /** `splitComma`. */
  function SplitComma(s: string): (r: seq<string>)
    ensures r == NonEmpty(TrimFields(Split(s, ','), true))
    ensures forall i :: 0 <= i < |r| ==> r[i] != "" && ',' !in r[i]
  {
    ScanMatchesFields(s);
    SplitFieldsLackSep(s, ',');
    NonEmptyKeeps(TrimFields(Split(s, ','), true));
    FieldPiecesHaveNoComma(TrimFields(Split(s, ','), true), Split(s, ','), true);
    SplitRest(s)
  }

  /** A piece that is a valid list element: non-empty, comma-free, and neither
      starting nor ending with whitespace. */
  predicate CleanPiece(p: string) {
    |p| > 0 && ',' !in p && !IsSpace(p[0]) && !IsSpace(p[|p| - 1])
  }

  /** A separator of the shape the pattern matches: whitespace, a comma, whitespace. */
  predicate IsSeparator(sep: string) {
    exists k :: 0 <= k < |sep| && sep[k] == ',' && AllSpace(sep[..k]) && AllSpace(sep[k + 1..])
  }


  // ---------------------------------------------------------------------------
  // The scan agrees with the field description.

  lemma {:induction false} SpaceRunStops(s: string, i: nat, j: nat)
    requires i <= j < |s|
    requires AllSpace(s[i..j]) && !IsSpace(s[j])
    ensures SpaceRun(s, i) == j - i
    decreases j - i
  {
    if i < j {
      assert s[i] == s[i..j][0];
      assert s[i + 1..j] == s[i..j][1..];
      SpaceRunStops(s, i + 1, j);
    }
  }

  /** A whitespace run ends no later than the next non-space character. */
  lemma {:induction false} SpaceRunBound(s: string, i: nat, k: nat)
    requires i <= k < |s| && !IsSpace(s[k])
    ensures i + SpaceRun(s, i) <= k
    decreases k - i
  {
    if IsSpace(s[i]) {
      SpaceRunBound(s, i + 1, k);
    }
  }

  /** Skipping offsets where nothing matches does not change the search result. */
  lemma {:induction false} FindSeparatorSkips(s: string, from: nat, k: nat)
    requires from <= k <= |s|
    requires forall i :: from <= i < k ==> MatchAt(s, i).None?
    ensures FindSeparator(s, from) == FindSeparator(s, k)
    decreases k - from
  {
    if from < k {
      FindSeparatorSkips(s, from + 1, k);
    }
  }

  /** With no comma after `from` there is no match. */
  lemma {:induction false} FindSeparatorNoComma(s: string, from: nat)
    requires from <= |s|
    requires ',' !in s[from..]
    ensures FindSeparator(s, from) == None
    decreases |s| - from
  {
    if from < |s| {
      var j := from + SpaceRun(s, from);
      if j < |s| {
        assert s[j] == s[from..][j - from];
      }
      assert s[from + 1..] == s[from..][1..];
      FindSeparatorNoComma(s, from + 1);
    }
  }

  /** No match starts at `i` when a non-space character comes before the next comma. */
  lemma NoMatchBeforeWord(s: string, i: nat, stop: nat, c: nat)
    requires i <= stop < c <= |s| && !IsSpace(s[stop])
    requires ',' !in s[i..c]
    ensures MatchAt(s, i).None?
  {
    SpaceRunBound(s, i, stop);
    var j := i + SpaceRun(s, i);
    assert s[j] == s[i..c][j - i];
  }

  /** The first comma at or after `last`. */
  lemma {:induction false} FirstCommaFrom(s: string, last: nat) returns (c: nat)
    requires last <= |s| && ',' in s[last..]
    ensures last <= c < |s| && s[c] == ',' && ',' !in s[last..c]
    decreases |s| - last
  {
    if s[last] == ',' {
      c := last;
    } else {
      assert s[last + 1..] == s[last..][1..];
      c := FirstCommaFrom(s, last + 1);
      forall k | 0 <= k < c - last
        ensures s[last..c][k] != ','
      {
        if k > 0 {
          assert s[last..c][k] == s[last + 1..c][k - 1];
        }
      }
    }
  }

  /** No match starts inside the first field before its trailing whitespace. */
  lemma NoMatchInField(s: string, last: nat, c: nat, i: nat)
    requires last <= c < |s| && ',' !in s[last..c]
    requires last <= i < last + |TrimRight(s[last..c])|
    ensures MatchAt(s, i).None?
  {
    var g := s[last..c];
    var t := |TrimRight(g)|;
    TrimRightIsPrefix(g);
    assert s[last + t - 1] == TrimRight(g)[t - 1];
    SliceLacks(g, ',', i - last, c - last);
    assert g[i - last..c - last] == s[i..c];
    NoMatchBeforeWord(s, i, last + t - 1, c);
  }

  /** The first match after `last` starts where the trailing whitespace of the
      first field begins and ends after the whitespace that follows its comma. */
  lemma FindSeparatorFirstComma(s: string, last: nat, c: nat)
    requires last <= c < |s| && s[c] == ','
    requires ',' !in s[last..c]
    ensures FindSeparator(s, last) == Some((last + |TrimRight(s[last..c])|, c + 1 + SpaceRun(s, c + 1)))
  {
    SkipField(s, last, c);
    MatchAfterField(s, last, c);
  }

  /** The search passes over the first field up to its trailing whitespace. */
  lemma SkipField(s: string, last: nat, c: nat)
    requires last <= c < |s| && ',' !in s[last..c]
    ensures last + |TrimRight(s[last..c])| <= c
    ensures FindSeparator(s, last) == FindSeparator(s, last + |TrimRight(s[last..c])|)
  {
    forall i | last <= i < last + |TrimRight(s[last..c])|
      ensures MatchAt(s, i).None?
    {
      NoMatchInField(s, last, c, i);
    }
    FindSeparatorSkips(s, last, last + |TrimRight(s[last..c])|);
  }

  /** A match starts at the trailing whitespace of the first field. */
  lemma MatchAfterField(s: string, last: nat, c: nat)
    requires last <= c < |s| && s[c] == ','
    ensures FindSeparator(s, last + |TrimRight(s[last..c])|) == Some((last + |TrimRight(s[last..c])|, c + 1 + SpaceRun(s, c + 1)))
  {
    var g := s[last..c];
    var t := |TrimRight(g)|;
    TrimRightRemovesSpace(g);
    assert s[last + t..c] == g[t..];
    SpaceRunStops(s, last + t, c);
    MatchAtComma(s, last + t, c);
  }

  lemma MatchAtComma(s: string, i: nat, j: nat)
    requires i <= j < |s| && s[j] == ',' && i + SpaceRun(s, i) == j
    ensures MatchAt(s, i) == Some(j + 1 + SpaceRun(s, j + 1))
    ensures FindSeparator(s, i) == Some((i, j + 1 + SpaceRun(s, j + 1)))
  {
  }

  /** One step of the scan: the trimmed first field, then the rest after the separator. */
  lemma ScanCut(t: string, c: nat)
    requires c < |t| && t[c] == ',' && ',' !in t[..c]
    ensures SplitRest(t) == Keep(TrimRight(t[..c])) + SplitRest(t[c + 1 + SpaceRun(t, c + 1)..])
  {
    FirstSeparator(t, c);
    ScanUnfold(t, |TrimRight(t[..c])|, c + 1 + SpaceRun(t, c + 1));
    TrimmedFieldIsPrefix(t, c);
  }

  lemma ScanUnfold(t: string, ms: nat, me: nat)
    requires FindSeparator(t, 0) == Some((ms, me))
    ensures ms < me <= |t|
    ensures SplitRest(t) == Keep(t[..ms]) + SplitRest(t[me..])
  {
  }

  /** The first field without its trailing whitespace is a prefix of `t`. */
  lemma TrimmedFieldIsPrefix(t: string, c: nat)
    requires c <= |t|
    ensures t[..|TrimRight(t[..c])|] == TrimRight(t[..c])
  {
    TrimRightIsPrefix(t[..c]);
    assert t[..c][..|TrimRight(t[..c])|] == t[..|TrimRight(t[..c])|];
  }

  /** The first match in `t` when its first comma is at `c`. */
  lemma FirstSeparator(t: string, c: nat)
    requires c < |t| && t[c] == ',' && ',' !in t[..c]
    ensures FindSeparator(t, 0) == Some((|TrimRight(t[..c])|, c + 1 + SpaceRun(t, c + 1)))
  {
    assert t[0..c] == t[..c];
    FindSeparatorFirstComma(t, 0, c);
  }

  /** The first comma of `t`. */
  lemma FirstComma(t: string) returns (c: nat)
    requires ',' in t
    ensures c < |t| && t[c] == ',' && ',' !in t[..c]
  {
    assert t[0..] == t;
    c := FirstCommaFrom(t, 0);
    assert t[0..c] == t[..c];
  }

  /** The comma-separated fields of a string that starts with whitespace: the
      whitespace stays in the first field, and disappears once it is trimmed. */
  lemma TrimFieldsSpacePrefix(w: string, x: string)
    requires AllSpace(w)
    requires |x| > 0 ==> !IsSpace(x[0])
    ensures TrimFields(Split(w + x, ','), false) == TrimFields(Split(x, ','), true)
  {
    var fs := Split(x, ',');
    SpaceLacksComma(w);
    SplitPrefix(w, x, ',');
    TrimLeftSpacePrefix(w, fs[0]);
    SplitHeadIsPrefix(x, ',');
    if |fs[0]| > 0 {
      assert fs[0][0] == x[0];
    }
    assert TrimLeft(fs[0]) == fs[0];
    var gs := Split(w + x, ',');
    assert gs[0] == w + fs[0] && gs[1..] == fs[1..];
  }

  /** One step of the field description, matching `ScanCut`. */
  lemma FieldsStep(t: string, c: nat)
    requires c < |t| && t[c] == ',' && ',' !in t[..c]
    ensures NonEmpty(TrimFields(Split(t, ','), true))
            == Keep(TrimRight(t[..c])) + NonEmpty(TrimFields(Split(t[c + 1 + SpaceRun(t, c + 1)..], ','), true))
  {
    var g, w, x := CutAtComma(t, c);
    FieldsOfCommaSpace(t, g, w, x);
  }

  /** Cuts `t` into the field before the comma at `c`, the whitespace after the
      comma, and the rest. */
  lemma CutAtComma(t: string, c: nat) returns (g: string, w: string, x: string)
    requires c < |t| && t[c] == ',' && ',' !in t[..c]
    ensures g == t[..c] && x == t[c + 1 + SpaceRun(t, c + 1)..]
    ensures t == g + [','] + (w + x)
    ensures ',' !in g && AllSpace(w) && (|x| > 0 ==> !IsSpace(x[0]))
  {
    SpaceRunIsMaximal(t, c + 1);
    var me := c + 1 + SpaceRun(t, c + 1);
    g, w, x := t[..c], t[c + 1..me], t[me..];
    assert t[c + 1..] == w + x;
    assert t[..c + 1] == g + [','];
    assert t == t[..c + 1] + t[c + 1..];
  }

  /** The field description of `g , w x` where the comma is the first one and `w`
      is the whitespace after it. */
  lemma FieldsOfCommaSpace(t: string, g: string, w: string, x: string)
    requires t == g + [','] + (w + x)
    requires ',' !in g && AllSpace(w) && (|x| > 0 ==> !IsSpace(x[0]))
    ensures NonEmpty(TrimFields(Split(t, ','), true)) == Keep(TrimRight(g)) + NonEmpty(TrimFields(Split(x, ','), true))
  {
    calc {
      NonEmpty(TrimFields(Split(t, ','), true));
      { SplitField(g, w + x, ','); }
      NonEmpty(TrimFields([g] + Split(w + x, ','), true));
      { TrimFieldsCons(g, Split(w + x, ','), true); }
      NonEmpty([TrimRight(g)] + TrimFields(Split(w + x, ','), false));
      { NonEmptyCons(TrimRight(g), TrimFields(Split(w + x, ','), false)); }
      Keep(TrimRight(g)) + NonEmpty(TrimFields(Split(w + x, ','), false));
      { TrimFieldsSpacePrefix(w, x); }
      Keep(TrimRight(g)) + NonEmpty(TrimFields(Split(x, ','), true));
    }
  }

  lemma TrimFieldsCons(f: string, rest: seq<string>, first: bool)
    requires |rest| >= 1
    ensures TrimFields([f] + rest, first) == [TrimRight(if first then f else TrimLeft(f))] + TrimFields(rest, false)
  {
    assert ([f] + rest)[1..] == rest;
  }

  lemma NonEmptyCons(p: string, rest: seq<string>)
    ensures NonEmpty([p] + rest) == Keep(p) + NonEmpty(rest)
  {
    assert ([p] + rest)[1..] == rest;
  }

  /** The scan and the field description give the same pieces. */
  lemma {:induction false} ScanMatchesFields(t: string)
    ensures SplitRest(t) == NonEmpty(TrimFields(Split(t, ','), true))
    decreases |t|
  {
    if ',' !in t {
      NoCommaFields(t);
    } else {
      var c := FirstComma(t);
      ScanCut(t, c);
      FieldsStep(t, c);
      ScanMatchesFields(t[c + 1 + SpaceRun(t, c + 1)..]);
    }
  }

  /** Without a comma the scan and the field description both keep the whole remainder, if non-empty. */
  lemma NoCommaFields(t: string)
    requires ',' !in t
    ensures SplitRest(t) == NonEmpty(TrimFields(Split(t, ','), true))
  {
    assert t[0..] == t;
    FindSeparatorNoComma(t, 0);
    SplitNoSep(t, ',');
    assert [t][1..] == [];
  }

  /** Trimming keeps the fields comma-free. */
  lemma {:induction false} FieldPiecesHaveNoComma(r: seq<string>, fs: seq<string>, first: bool)
    requires forall i :: 0 <= i < |fs| ==> ',' !in fs[i]
    requires r == TrimFields(fs, first)
    ensures forall i :: 0 <= i < |r| ==> ',' !in r[i]
    decreases |fs|
  {
    if |fs| > 0 {
      var x := fs[0];
      TrimLeftIsSuffix(x);
      SliceLacks(x, ',', |x| - |TrimLeft(x)|, |x|);
      var f := if first then x else TrimLeft(x);
      assert ',' !in f;
      if |fs| > 1 {
        TrimRightIsPrefix(f);
        SliceLacks(f, ',', 0, |TrimRight(f)|);
        FieldPiecesHaveNoComma(TrimFields(fs[1..], false), fs[1..], false);
      }
    }
  }

  // ---------------------------------------------------------------------------
  // Round trip: clean pieces joined with any separator the pattern matches come back.

  lemma SeparatorParts(sep: string) returns (w1: string, w2: string)
    requires IsSeparator(sep)
    ensures sep == w1 + [','] + w2 && AllSpace(w1) && AllSpace(w2)
  {
    var k :| 0 <= k < |sep| && sep[k] == ',' && AllSpace(sep[..k]) && AllSpace(sep[k + 1..]);
    w1, w2 := sep[..k], sep[k + 1..];
    assert sep == w1 + [','] + w2;
  }

  /** A clean piece keeps its text under trimming, whatever whitespace surrounds it. */
  lemma CleanPieceTrims(pre: string, p: string, w: string)
    requires CleanPiece(p) && AllSpace(pre) && AllSpace(w)
    ensures TrimLeft(pre + p + w) == p + w
    ensures TrimRight(p + w) == p
  {
    assert pre + p + w == pre + (p + w);
    TrimLeftSpacePrefix(pre, p + w);
    assert (p + w)[0] == p[0];
    TrimRightSpaceSuffix(p, w);
    assert p[|p| - 1] == p[|p| - 1];
  }

  lemma {:induction false} SplitJoinedPieces(ps: seq<string>, sep: string, pre: string, first: bool)
    requires |ps| >= 1
    requires forall i :: 0 <= i < |ps| ==> CleanPiece(ps[i])
    requires IsSeparator(sep)
    requires AllSpace(pre) && (first ==> pre == "")
    ensures NonEmpty(TrimFields(Split(pre + Join(ps, sep), ','), first)) == ps
    decreases |ps|
  {
    if |ps| == 1 {
      assert Join(ps, sep) == ps[0];
      JoinedSingle(pre, ps[0], first);
      assert [ps[0]] == ps;
    } else {
      var w2 := JoinedHead(ps, sep, pre, first);
      SplitJoinedPieces(ps[1..], sep, w2, false);
      assert [ps[0]] + ps[1..] == ps;
    }
  }

  /** The first of several joined pieces comes back first; the rest starts with
      the whitespace `w2` that follows the comma. */
  lemma JoinedHead(ps: seq<string>, sep: string, pre: string, first: bool) returns (w2: string)
    requires |ps| >= 2 && CleanPiece(ps[0])
    requires IsSeparator(sep)
    requires AllSpace(pre) && (first ==> pre == "")
    ensures AllSpace(w2)
    ensures NonEmpty(TrimFields(Split(pre + Join(ps, sep), ','), first))
            == [ps[0]] + NonEmpty(TrimFields(Split(w2 + Join(ps[1..], sep), ','), false))
  {
    var w1;
    w1, w2 := SeparatorParts(sep);
    JoinShape(pre, ps, sep, w1, w2);
    JoinedStep(pre, ps[0], w1, w2 + Join(ps[1..], sep), first);
  }

  /** The last piece, with whitespace only before it, comes back alone. */
  lemma JoinedSingle(pre: string, p: string, first: bool)
    requires CleanPiece(p) && AllSpace(pre) && (first ==> pre == "")
    ensures NonEmpty(TrimFields(Split(pre + p, ','), first)) == [p]
  {
    SpaceLacksComma(pre);
    SplitNoSep(pre + p, ',');
    CleanPieceTrims(pre, p, "");
    assert pre + p + "" == pre + p && p + "" == p;
    assert TrimFields([pre + p], first) == [p];
    assert NonEmpty([p]) == [p] + NonEmpty([]);
  }

  /** `pre + Join(ps, sep)` with the separator cut into its parts. */
  lemma JoinShape(pre: string, ps: seq<string>, sep: string, w1: string, w2: string)
    requires |ps| >= 2 && sep == w1 + [','] + w2
    ensures pre + Join(ps, sep) == pre + ps[0] + w1 + [','] + (w2 + Join(ps[1..], sep))
  {
    assert Join(ps, sep) == ps[0] + sep + Join(ps[1..], sep);
  }

  /** A clean piece between whitespace and a comma comes back as the first piece. */
  lemma JoinedStep(pre: string, p: string, w1: string, u: string, first: bool)
    requires CleanPiece(p) && AllSpace(pre) && AllSpace(w1) && (first ==> pre == "")
    ensures NonEmpty(TrimFields(Split(pre + p + w1 + [','] + u, ','), first))
            == [p] + NonEmpty(TrimFields(Split(u, ','), false))
  {
    SpaceLacksComma(pre);
    SpaceLacksComma(w1);
    SliceLacks(p, ',', 0, |p|);
    assert p[0..|p|] == p;
    NoCommaConcat(pre, p, w1);
    CleanPieceTrims(pre, p, w1);
    assert first ==> pre + p + w1 == p + w1;
    calc {
      NonEmpty(TrimFields(Split(pre + p + w1 + [','] + u, ','), first));
      { SplitField(pre + p + w1, u, ','); }
      NonEmpty(TrimFields([pre + p + w1] + Split(u, ','), first));
      { TrimFieldsCons(pre + p + w1, Split(u, ','), first); }
      NonEmpty([p] + TrimFields(Split(u, ','), false));
      { NonEmptyCons(p, TrimFields(Split(u, ','), false)); }
      [p] + NonEmpty(TrimFields(Split(u, ','), false));
    }
  }

  lemma NoCommaConcat(a: string, b: string, c: string)
    requires ',' !in a && ',' !in b && ',' !in c
    ensures ',' !in a + b + c
  {
  }

  /** Clean pieces joined by whitespace, a comma and whitespace split back into
      the same pieces: whitespace is removed only next to commas. */
  lemma SplitCommaJoin(ps: seq<string>, sep: string)
    requires forall i :: 0 <= i < |ps| ==> CleanPiece(ps[i])
    requires IsSeparator(sep)
    ensures SplitComma(Join(ps, sep)) == ps
  {
    if |ps| > 0 {
      SplitJoinedPieces(ps, sep, "", true);
      assert "" + Join(ps, sep) == Join(ps, sep);
    } else {
      SplitNoSep("", ',');
    }
  }

  /** Whitespace at the very start or end of the value is not next to a comma and is kept. */
  lemma SplitCommaKeepsOuterSpace()
    ensures SplitComma(" a ") == [" a "]
  {
    SplitNoSep(" a ", ',');
  }

  /** `"a, b ,c"` splits into `a`, `b`, `c`. */
  lemma SplitCommaExample(s: string)
    requires s == "a, b ,c"
    ensures SplitComma(s) == ["a", "b", "c"]
  {
    assert s == "a" + [','] + (" " + "b ,c");
    assert AllSpace(" ");
    FieldsOfCommaSpace(s, "a", " ", "b ,c");
    ExampleTail("b ,c");
  }

  lemma ExampleTail(t: string)
    requires t == "b ,c"
    ensures NonEmpty(TrimFields(Split(t, ','), true)) == ["b", "c"]
  {
    assert t == "b " + [','] + ("" + "c");
    FieldsOfCommaSpace(t, "b ", "", "c");
    assert TrimRight("b ") == "b";
    SplitNoSep("c", ',');
    assert NonEmpty(["c"]) == ["c"];
  }
}

=== FILE: Strings.dfy ===
/** Character classes and string helpers shared by the migrator: PCRE's `\d` and
    `\s` classes, PHP's ASCII case functions, splitting on a separator character,
    joining, trimming and line assembly. PHP strings are byte strings; here a
    string is a `seq<char>` and the case functions touch only ASCII letters. */
module Strings {

  /** PCRE `\d` without the Unicode flag: an ASCII decimal digit. */
  predicate IsDigit(c: char) {
    '0' <= c <= '9'
  }

  /** PCRE `\s` with the default tables: space, tab, line feed, vertical tab,
      form feed and carriage return (code points 9 to 13 and 32). */
  predicate IsSpace(c: char) {
    c == ' ' || '\t' <= c <= '\r'
  }

  predicate AllSpace(s: string) {
    forall i :: 0 <= i < |s| ==> IsSpace(s[i])
  }

  /** PHP's `ucfirst`: upper-cases the first byte when it is an ASCII lower-case letter. */
  function UcFirst(s: string): (r: string)
    ensures |r| == |s|
    ensures |s| > 0 ==> r[1..] == s[1..]
    ensures |s| > 0 && !('a' <= s[0] <= 'z') ==> r == s
  {
    if |s| > 0 && 'a' <= s[0] <= 'z' then [(s[0] as int - 32) as char] + s[1..] else s
  }

  function LowerChar(c: char): char {
    if 'A' <= c <= 'Z' then (c as int + 32) as char else c
  }

  /** ASCII lower-casing, as PHP does for method names when it looks them up. */
  function Lower(s: string): (r: string)
    ensures |r| == |s|
  {
    if |s| == 0 then "" else [LowerChar(s[0])] + Lower(s[1..])
  }

  /** Lower-casing works character by character. */
  lemma {:induction false} LowerAppend(a: string, b: string)
    ensures Lower(a + b) == Lower(a) + Lower(b)
    decreases |a|
  {
    if |a| > 0 {
      assert (a + b)[1..] == a[1..] + b;
      LowerAppend(a[1..], b);
    } else {
      assert a + b == b;
    }
  }

  /** Drops the leading run of whitespace. */
  function TrimLeft(s: string): (r: string)
    ensures |r| <= |s|
    ensures |r| > 0 ==> !IsSpace(r[0])
    decreases |s|
  {
    if |s| > 0 && IsSpace(s[0]) then TrimLeft(s[1..]) else s
  }

  /** Drops the trailing run of whitespace. */
  function TrimRight(s: string): (r: string)
    ensures |r| <= |s|
    ensures |r| > 0 ==> !IsSpace(r[|r| - 1])
    decreases |s|
  {
    if |s| > 0 && IsSpace(s[|s| - 1]) then TrimRight(s[..|s| - 1]) else s
  }

  /** TrimLeft keeps a suffix. */
  lemma {:induction false} TrimLeftIsSuffix(s: string)
    ensures TrimLeft(s) == s[|s| - |TrimLeft(s)|..]
    decreases |s|
  {
    if |s| > 0 && IsSpace(s[0]) {
      TrimLeftIsSuffix(s[1..]);
    }
  }

  /** TrimRight keeps a prefix. */
  lemma {:induction false} TrimRightIsPrefix(s: string)
    ensures TrimRight(s) == s[..|TrimRight(s)|]
    decreases |s|
  {
    if |s| > 0 && IsSpace(s[|s| - 1]) {
      TrimRightIsPrefix(s[..|s| - 1]);
    }
  }

  /** What TrimRight removes is whitespace. */
  lemma {:induction false} TrimRightRemovesSpace(s: string)
    ensures AllSpace(s[|TrimRight(s)|..])
    decreases |s|
  {
    if |s| > 0 && IsSpace(s[|s| - 1]) {
      var t := s[..|s| - 1];
      TrimRightRemovesSpace(t);
      var k := |TrimRight(t)|;
      assert s[k..] == t[k..] + [s[|s| - 1]];
    }
  }

  /** Leading whitespace disappears under TrimLeft. */
  lemma {:induction false} TrimLeftSpacePrefix(w: string, s: string)
    requires AllSpace(w)
    ensures TrimLeft(w + s) == TrimLeft(s)
    decreases |w|
  {
    if |w| > 0 {
      assert (w + s)[1..] == w[1..] + s;
      TrimLeftSpacePrefix(w[1..], s);
    } else {
      assert w + s == s;
    }
  }

  /** Trailing whitespace disappears under TrimRight. */
  lemma {:induction false} TrimRightSpaceSuffix(s: string, w: string)
    requires AllSpace(w)
    ensures TrimRight(s + w) == TrimRight(s)
    decreases |w|
  {
    if |w| > 0 {
      assert (s + w)[..|s + w| - 1] == s + w[..|w| - 1];
      TrimRightSpaceSuffix(s, w[..|w| - 1]);
    } else {
      assert s + w == s;
    }
  }

  /** Splits `s` at every occurrence of `sep`, keeping empty fields: the result
      has one field more than `s` has separators. */
  function Split(s: string, sep: char): (r: seq<string>)
    ensures |r| >= 1
    decreases |s|
  {
    if |s| == 0 then [""]
    else
      var rest := Split(s[1..], sep);
      if s[0] == sep then [""] + rest
      else [[s[0]] + rest[0]] + rest[1..]
  }

  /** No field holds the separator. */
  lemma {:induction false} SplitFieldsLackSep(s: string, sep: char)
    ensures forall i :: 0 <= i < |Split(s, sep)| ==> sep !in Split(s, sep)[i]
    decreases |s|
  {
    if |s| > 0 {
      SplitFieldsLackSep(s[1..], sep);
    }
  }

  /** The first field is a prefix of the string. */
  lemma {:induction false} SplitHeadIsPrefix(s: string, sep: char)
    ensures |Split(s, sep)[0]| <= |s| && Split(s, sep)[0] == s[..|Split(s, sep)[0]|]
    decreases |s|
  {
    if |s| > 0 {
      SplitHeadIsPrefix(s[1..], sep);
    }
  }

  /** Joins the fields with `sep` between neighbours. */
  function Join(ps: seq<string>, sep: string): string
  {
    if |ps| == 0 then ""
    else if |ps| == 1 then ps[0]
    else ps[0] + sep + Join(ps[1..], sep)
  }

  /** A separator-free prefix extends the first field and leaves the others alone. */
  lemma {:induction false} SplitPrefix(a: string, t: string, sep: char)
    requires sep !in a
    ensures Split(a + t, sep) == [a + Split(t, sep)[0]] + Split(t, sep)[1..]
    decreases |a|
  {
    if |a| > 0 {
      assert (a + t)[0] == a[0];
      assert (a + t)[1..] == a[1..] + t;
      SplitPrefix(a[1..], t, sep);
      assert [a[0]] + (a[1..] + Split(t, sep)[0]) == a + Split(t, sep)[0];
    } else {
      var r := Split(t, sep);
      assert a + t == t;
      assert a + r[0] == r[0];
      assert [r[0]] + r[1..] == r;
    }
  }

  /** A string without the separator is a single field. */
  lemma SplitNoSep(a: string, sep: char)
    requires sep !in a
    ensures Split(a, sep) == [a]
  {
    SplitPrefix(a, "", sep);
    assert a + "" == a;
  }

  /** A slice of a string without `c` has no `c` either. */
  lemma SliceLacks(s: string, c: char, i: nat, j: nat)
    requires c !in s && i <= j <= |s|
    ensures c !in s[i..j]
  {
    forall k | 0 <= k < j - i
      ensures s[i..j][k] != c
    {
      assert s[i..j][k] == s[i + k];
    }
  }

  /** Whitespace holds no comma. */
  lemma SpaceLacksComma(w: string)
    requires AllSpace(w)
    ensures ',' !in w
  {
    forall k | 0 <= k < |w|
      ensures w[k] != ','
    {
      assert IsSpace(w[k]);
    }
  }

  /** A field followed by a separator becomes a field of its own. */
  lemma SplitField(a: string, t: string, sep: char)
    requires sep !in a
    ensures Split(a + [sep] + t, sep) == [a] + Split(t, sep)
  {
    assert a + [sep] + t == a + ([sep] + t);
    SplitPrefix(a, [sep] + t, sep);
    assert ([sep] + t)[0] == sep;
    assert ([sep] + t)[1..] == t;
    assert Split([sep] + t, sep) == [""] + Split(t, sep);
    assert a + "" == a;
  }

  /** Concatenation regroups freely; stated once so that proofs can call it in a
      small context instead of rediscovering it in a large one. */
  lemma AppendAssoc<T>(a: seq<T>, b: seq<T>, c: seq<T>)
    ensures a + b + c == a + (b + c)
  {
  }

  lemma HeadTail<T>(s: seq<T>)
    requires |s| > 0
    ensures [s[0]] + s[1..] == s
  {
  }

  /** Every line followed by a line feed, as a sequence of `sprintf("...\n")` appends builds it. */
  function Unlines(ls: seq<string>): string
  {
    if |ls| == 0 then "" else ls[0] + "\n" + Unlines(ls[1..])
  }

  lemma {:induction false} UnlinesAppend(a: seq<string>, b: seq<string>)
    ensures Unlines(a + b) == Unlines(a) + Unlines(b)
    decreases |a|
  {
    if |a| > 0 {
      assert (a + b)[1..] == a[1..] + b;
      UnlinesAppend(a[1..], b);
    } else {
      assert a + b == b;
    }
  }

  lemma AppendLineAssoc(str: string, l: string, u: string)
    ensures str + l + "\n" + u == str + (l + "\n" + u)
  {
  }

  /** A character that no field and not the separator holds is not in the join. */
  lemma {:induction false} JoinLacks(ps: seq<string>, sep: string, c: char)
    requires c !in sep
    requires forall i :: 0 <= i < |ps| ==> c !in ps[i]
    ensures c !in Join(ps, sep)
    decreases |ps|
  {
    if |ps| > 1 {
      JoinLacks(ps[1..], sep, c);
    }
  }

  /** No line holds a line feed. */
  predicate NoLineFeeds(ls: seq<string>)
    decreases |ls|
  {
    |ls| == 0 || ('\n' !in ls[0] && NoLineFeeds(ls[1..]))
  }

  lemma {:induction false} NoLineFeedsAppend(a: seq<string>, b: seq<string>)
    requires NoLineFeeds(a) && NoLineFeeds(b)
    ensures NoLineFeeds(a + b)
    decreases |a|
  {
    if |a| == 0 {
      assert a + b == b;
    } else {
      NoLineFeedsAppend(a[1..], b);
      assert (a + b)[1..] == a[1..] + b;
    }
  }

  /** The lines can be read back from the text when none of them holds a line feed. */
  lemma {:induction false} SplitUnlines(ls: seq<string>)
    requires NoLineFeeds(ls)
    ensures Split(Unlines(ls), '\n') == ls + [""]
    decreases |ls|
  {
    if |ls| > 0 {
      SplitUnlines(ls[1..]);
      SplitField(ls[0], Unlines(ls[1..]), '\n');
      assert ls[0] + "\n" + Unlines(ls[1..]) == ls[0] + ['\n'] + Unlines(ls[1..]);
      assert [ls[0]] + (ls[1..] + [""]) == ls + [""];
    }
  }

  /** Number of occurrences of `c` in `s`. */
  function Count(s: string, c: char): nat
  {
    if |s| == 0 then 0 else (if s[0] == c then 1 else 0) + Count(s[1..], c)
  }
}

=== FILE: Values.dfy ===
/** `migrateValue`: how one legacy attribute value becomes an Icinga 2 value.

    A value whose key is one of the variant's array properties is split at commas
    and becomes a list of migrated pieces; any other value stays a scalar. A
    scalar that starts with a decimal digit is passed through untouched (numbers,
    and also durations such as `30s`); every other scalar becomes a quoted string
    literal. */
module Values {
  import opened Strings
  import opened Results
  import opened Escaping
  import opened Splitting

  /** A migrated value: PHP keeps either a string or an array of strings. */
  datatype Value = Scalar(text: string) | List(items: seq<string>)

  /** `preg_match('/^\d+/', $value)`: the value starts with a decimal digit. */
  predicate StartsWithDigit(s: string) {
    |s| > 0 && IsDigit(s[0])
  }

  /** The scalar branch of `migrateValue`: pass numbers through, quote the rest.
      The escaping loses nothing: stripping the outer quotes and the backslashes
      before quotes (`ReadScalar`) gives the value back. Whether a reader finds
      the closing quote is a separate matter, stated by
      `Rendering.ScalarLiteralReadsBack`. */
  function MigrateScalar(s: string): (r: string)
    ensures StartsWithDigit(s) ==> r == s
    ensures !StartsWithDigit(s) ==> |r| >= 2 && r[0] == '"' && r[|r| - 1] == '"'
    ensures ReadScalar(r) == Some(s)
  {
    if StartsWithDigit(s) then s else MigrateLegacyString(s)
  }

  /** Undoes the scalar branch: an unquoted number stands for itself; otherwise
      the outer quotes and the backslashes before quotes are stripped. This does
      not scan for the closing quote. A quoted literal never starts with a digit,
      so the two cases cannot be confused. */
  function ReadScalar(r: string): Option<string> {
    if StartsWithDigit(r) then Some(r) else Unquote(r)
  }

  /** `migrateValue($value, $key)`. `key` is `None` for the recursive call on a
      list piece, which therefore always takes the scalar branch. A list has one
      element per comma-separated piece, in order, each the scalar migration of
      its piece; a scalar is the value when numeric. `ReadScalar` undoes the
      escaping of a scalar and of each element. */
  function MigrateValue(value: string, key: Option<string>, arrayProperties: set<string>): (r: Value)
    ensures r.List? <==> key.Some? && key.value in arrayProperties
    ensures r.Scalar? ==> ReadScalar(r.text) == Some(value)
    ensures r.Scalar? && StartsWithDigit(value) ==> r.text == value
    ensures r.List? ==> |r.items| == |SplitComma(value)|
    ensures r.List? ==> forall i :: 0 <= i < |r.items| ==> r.items[i] == MigrateScalar(SplitComma(value)[i])
    ensures r.List? ==> forall i :: 0 <= i < |r.items| ==> ReadScalar(r.items[i]) == Some(SplitComma(value)[i])
  {
    if key.Some? && key.value in arrayProperties then
      List(MigratePieces(SplitComma(value)))
    else
      Scalar(MigrateScalar(value))
  }

  /** The `foreach` of the list branch: each piece goes through `migrateValue`
      without a key, which is the scalar branch, and the results keep the order
      of the pieces. */
  function MigratePieces(pieces: seq<string>): (r: seq<string>)
    ensures |r| == |pieces|
    ensures forall i :: 0 <= i < |pieces| ==> r[i] == MigrateScalar(pieces[i])
  {
    if |pieces| == 0 then [] else [MigrateScalar(pieces[0])] + MigratePieces(pieces[1..])
  }

  /** An array property without a comma becomes a one-element list; the piece
      keeps its outer spaces and is quoted. */
  lemma MigrateListExample(s: string)
    requires s == " a "
    ensures MigrateValue(s, Some("members"), {"members"}) == List(["\" a \""])
  {
    SplitCommaKeepsOuterSpace();
    assert s[1..] == "a " && s[1..][1..] == " " && s[1..][1..][1..] == "";
    assert EscapeQuotes(s) == s;
    assert MigrateScalar(s) == "\" a \"";
    assert MigratePieces([s]) == ["\" a \""];
  }

  /** `"30"` and `"30s"` pass through unquoted; `"abc"` is quoted. */
  lemma NumericPrefixExamples()
    ensures MigrateScalar("30") == "30"
    ensures MigrateScalar("30s") == "30s"
    ensures MigrateScalar("abc") == "\"abc\""
  {
    assert EscapeQuotes("abc") == "abc";
  }
}
